=== FILE: README.md ===
# Comment annotations for the admin editor, modelled in Dafny

This project models the browser-side comment layer of the CMS admin. The layer overlays comment markers on form fields and on spans of rich text, and keeps them in step with an external comment store. The model covers the decision logic of that layer. It leaves out the DOM, React and Draft.js calls around it.

- **Content path** (`content_path.dfy`, module `ContentPath`). A field's content path is the dotted address built from the `data-contentpath` attributes of the field and its ancestors, outermost first. It is empty inside a part of the page marked as not addressable. The DOM becomes the chain of elements met when walking up from the field. `GetContentPath` is the walk, step by step. `ContentPathOf` is the declarative definition, and the walk is proved equal to it.
- **Field annotation** (`field_annotation.dfy`, module `FieldAnnotation`). This is the store listener of a field-level comment marker. Each notification is compared with what the listener last saw, and an effect (`Focus`, `Unfocus`, `Show`, `Hide`, `Delete`) fires only when a flag flips. `Look` is the level-based partner: the marker node's classes as those effects leave them. For a node that starts in step with its listener (as `FieldAnnotation.SubscribeInSync` describes; see the note on the field annotation below), the lemmas show that the node always shows what the store last said and that no effect is ever redundant.
- **Field widget** (`field_widget.dfy`, module `FieldWidget`). This is the per-field controller. Its "add comment" button is hidden exactly when comments are disabled or the widget's count is above 0. The count follows the field's comment list from the list's first change on. Its two store listeners call `setEnabled` only when the setting changes, recount only when the field's comment list changes, and annotate only comments that have no annotation yet. The field is registered only when its content path is non-empty. `InitFieldWidget` models the program with both findings below repaired. As written, `register` throws whenever the store holds any comment (`RegisterAsWritten`).
- **Comment styles** (`comment_styles.dfy`, module `CommentStyles`). A span of rich text is tied to a comment by the inline style `COMMENT-<id>`. The decorator reads the id back with `slice(8)` and `parseInt`. The decorator strategy marks the spans that carry a style starting with `COMMENT`.
- **Editor plugins** (`draftail_plugins.dfy`, module `DraftailPlugins`). This covers the plugin registry, `wrapWagtailIcon`, the right-biased merge of a plugin with the server's entity type, and the defaults of the editor options.
- **Rich-text comments** (`draftail_comments.dfy`, module `DraftailComments`). This covers the inline annotation (null-guarded click and position) and the rich-text comment widget. When a comment is created, the widget records an annotation under the new id and marks the selection with that id's style. The decorator later finds the same annotation from the style.
- **Support.** `js_text.dfy` (module `JsText`) models the JavaScript built-ins used: `join`, `reverse`, `startsWith`, `slice`, `parseInt` and the decimal rendering of a number. `Split` is the inverse `join` is checked against. `store.dfy` holds the snapshot the code reads from the comment store. `common.dfy` holds `Option`, `Result` and the two JavaScript errors the code can raise by accident.

The comment store is an input. Every `store.getState()` is a `Snapshot` argument, and every id that `makeComment` hands out is a parameter. The selector for the comments of one content path is modelled as a filter on `contentPath`. Its result is compared by value where the code compares references.

A note on the field widget. `register` sets the setting but never the count (comments.js:123-137). The count stays at the constructor's 0 even when the field already has comments, so the add button shows until the field's list next changes. The model keeps this: `FieldWidget.Register` leaves the count alone, and `FieldWidget.CountAgreesAfterChange` is the point from which count and list agree.

A note on the field annotation. The node for a new marker is cloned with its `u-hidden` class removed (comments.js:190). `subscribeToUpdates` then sets `shown` to the "comments enabled" setting without calling `hide`. So a marker created while comments are disabled stays visible until the setting is next toggled. `FieldAnnotation.SubscribeInSync` therefore assumes a starting node whose visibility already matches the setting.

## Model

| member | source | states |
|---|---|---|
| `ContentPath.ContentPathOf` | client/src/components/CommentApp/comments.js:20-33 | empty when a disabled element is an ancestor-or-self, empty when no element carries a segment, a TypeError exactly when nothing is disabled and the root element carries a segment |
| `ContentPath.GetContentPath` | client/src/components/CommentApp/comments.js:20-33 | the step-by-step walk up the DOM returns exactly the declarative content path |
| `ContentPath.FindDisabled` | client/src/components/CommentApp/comments.js:22-24 | the walk finds a disabled element iff some ancestor-or-self is disabled |
| `ContentPath.CollectSegments` | client/src/components/CommentApp/comments.js:25-30 | the loop collects the segment of every path-bearing element innermost first, and throws on the null parent of a path-bearing root |
| `ContentPath.Closest` | client/src/components/CommentApp/comments.js:25-29 | `closest('[data-contentpath]')` returns the nearest path-bearing element at or above the start, with none skipped, or none at all |
| `ContentPath.SegmentPlacement` | client/src/components/CommentApp/comments.js:25-32 | there are exactly as many segments as path-bearing elements, and each element's segment sits right after those of the path-bearing elements above it |
| `ContentPath.OuterAncestorComesFirst` | client/src/components/CommentApp/comments.js:28-32 | adding a path-bearing ancestor further out puts its segment at the front |
| `ContentPath.InnerNodeComesLast` | client/src/components/CommentApp/comments.js:28-32 | adding a path-bearing element further in puts its segment at the end |
| `ContentPath.PathSplitsIntoSegments` | client/src/components/CommentApp/comments.js:31-32 | when no segment contains a dot, splitting the content path on `.` gives back the segments outermost first |
| `ContentPath.TagSelectorMissesDisabledAttribute` | client/src/components/CommentApp/comments.js:22 | with the bare selector, a field inside an element carrying `data-contentpath-disabled` still gets a path; with the attribute selector it gets `''` |
| `JsText.SplitJoin` | client/src/components/CommentApp/comments.js:32 | `join('.')` of dot-free parts is undone by splitting on `.` |
| `JsText.ParseIntDecimal` | client/src/components/Draftail/index.js:165 | `parseInt` of the decimal rendering of a safe integer is that integer |
| `FieldAnnotation.Subscribe` | client/src/components/CommentApp/comments.js:42-50 | the initial Focus fires iff the comment is focused at subscribe time, no Show or Hide fires, and `shown` starts at the enabled setting |
| `FieldAnnotation.OnDelete` | client/src/components/CommentApp/comments.js:77-82 | removes the node and unsubscribes, leaving the flags alone |
| `FieldAnnotation.Notify` | client/src/components/CommentApp/comments.js:50-75 | Focus fires iff focus flips false to true, Unfocus iff true to false, Hide and Show likewise on the enabled setting, Delete iff the comment is gone; afterwards the flags equal the snapshot's; an unsubscribed annotation does nothing |
| `FieldAnnotation.RepeatIsSilent` | client/src/components/CommentApp/comments.js:57-73 | a second notification with the same snapshot fires no effect |
| `FieldAnnotation.UnsubscribedIsSilent` | client/src/components/CommentApp/comments.js:79-81 | once unsubscribed, any further notifications fire nothing and change nothing |
| `FieldAnnotation.SilentAfterDelete` | client/src/components/CommentApp/comments.js:53-56 | after the notification that finds the comment gone, later notifications add no effect |
| `FieldAnnotation.NotifyKeepsLookInSync` | client/src/components/CommentApp/comments.js:57-98 | applied to a node that shows the last-seen state, one notification's effects each change the node and leave it showing the new state |
| `FieldAnnotation.RunKeepsLookInSync` | client/src/components/CommentApp/comments.js:50-98 | over any sequence of notifications the node stays in step, no effect is redundant, and the node is removed at most once |
| `FieldAnnotation.SubscribeInSync` | client/src/components/CommentApp/comments.js:43-49 | subscribing brings an unfocused node whose visibility matches the setting in step with the listener |
| `FieldWidget.NewWidget` | client/src/components/CommentApp/comments.js:111-122 | a new widget counts no comments and has comments disabled; the add button's class is untouched |
| `FieldWidget.UpdateVisibility` | client/src/components/CommentApp/comments.js:178-186 | afterwards the add button is hidden iff comments are disabled or the count is above 0 |
| `FieldWidget.SetEnabled` | client/src/components/CommentApp/comments.js:168-172 | records the setting and re-establishes the visibility rule, keeping the count |
| `FieldWidget.OnChangeComments` | client/src/components/CommentApp/comments.js:173-177 | the count becomes the list's length and the visibility rule holds again |
| `FieldWidget.Unannotated` | client/src/components/CommentApp/comments.js:144 | exactly the ids of the listed comments whose annotation is null |
| `FieldWidget.Register` | client/src/components/CommentApp/comments.js:123-160 | registration calls `setEnabled` with the current setting, records the field's comment list, makes the invariant hold, and annotates exactly the comments already on the field's path |
| `FieldWidget.RegisterAsWritten` | client/src/components/CommentApp/comments.js:123-166 | the code as written throws a ReferenceError iff the store holds any comment; it then leaves `setEnabled` applied and both store listeners subscribed, but no click listener on the add button; with an empty store it agrees with the repaired registration |
| `FieldWidget.RegisterAsWrittenThrows` | client/src/components/CommentApp/comments.js:154-161 | a store with one comment on the field makes the written code throw, annotating nothing and installing no click listener, where the repaired one annotates it |
| `FieldWidget.ThrownRegistrationNeverAdds` | client/src/components/CommentApp/comments.js:127-165 | after that throw, the store listeners keep the add button right under any later notifications, and the field never gets a click listener |
| `FieldWidget.EnableListener` | client/src/components/CommentApp/comments.js:127-133 | the first listener emits `setEnabled` with the new setting iff the setting differs from the copy it last saw, and otherwise leaves the widget alone |
| `FieldWidget.CommentsListener` | client/src/components/CommentApp/comments.js:138-153 | the second listener leaves the widget alone when the field's list is unchanged; otherwise it first counts the new list, then annotates exactly its comments without an annotation |
| `FieldWidget.OnStoreChange` | client/src/components/CommentApp/comments.js:127-153 | `setEnabled` runs iff the setting changed; the count is refreshed, to the new list's length, iff the field's list changed and is kept otherwise; an annotation is created iff the list changed and the comment has none |
| `FieldWidget.StoreChangeKeepsInvariant` | client/src/components/CommentApp/comments.js:127-153 | the listeners preserve "listener copy equals widget setting, and the add button is right" |
| `FieldWidget.RunKeepsInvariant` | client/src/components/CommentApp/comments.js:123-186 | after any notifications the invariant holds, the widget's setting and the listener's list are the latest snapshot's, a count that agreed with the list still does, and the click listener stays installed or missing |
| `FieldWidget.CountAgreesAfterChange` | client/src/components/CommentApp/comments.js:138-143 | once the field's list changes, the widget's count is the number of comments on the field from then on |
| `FieldWidget.AnnotatesEachOnce` | client/src/components/CommentApp/comments.js:138-153 | with unique ids in the snapshot, one notification creates at most one annotation per comment, and none for a comment already marked annotated |
| `FieldWidget.AnnotatesAtMostOnce` | client/src/components/CommentApp/comments.js:138-153 | over any notifications after registration, each comment gets at most one annotation, and none if it was annotated before, provided ids are unique and the store marks a comment annotated from the notification after its annotation on |
| `FieldWidget.IdsForOnce` | client/src/components/CommentApp/comments.js:154-160 | when ids are unique, the enumeration at registration names each comment at most once |
| `FieldWidget.AnnotatesOncePerLife` | client/src/components/CommentApp/comments.js:123-160 | over a widget's whole life, registration plus every later notification, each comment gets at most one annotation, provided ids are unique and the store records the annotations it is given |
| `FieldWidget.InitFieldWidget` | client/src/components/CommentApp/comments.js:196-205 | the repaired program (attribute selector and repaired `register`): the widget registers iff its content path is non-empty; a content-path TypeError propagates; a field with a path but no add button throws a TypeError in the first `updateVisibility` (comments.js:126, 182-184) |
| `Store.CommentsFor` | client/src/components/CommentApp/comments.js:134-140 | the selected comments are exactly the store's comments on the given path |
| `Store.CommentsForAppend` | client/src/components/CommentApp/comments.js:134-140 | the selector keeps store order: selecting from a concatenation is selecting from each part in turn, and a single comment is kept iff it is on the path |
| `Store.CommentsForUnique` | client/src/components/CommentApp/comments.js:134-140 | a selection from a list with unique ids has unique ids |
| `Store.CommentsForCounts` | client/src/components/CommentApp/comments.js:134-142 | each comment on the path is kept as often as the store holds it and every other comment is dropped, so the count is the number of comments on the path |
| `CommentStyles.StyleFor` | client/src/components/Draftail/index.js:153 | the style starts with `COMMENT-`, whose length is the 8 dropped by the decoder, followed by the id's decimal digits |
| `CommentStyles.IdOfStyleFor` | client/src/components/Draftail/index.js:153-165 | round trip: `parseInt(('COMMENT-' + id).slice(8)) == id` for every comment id |
| `CommentStyles.StyleForInjective` | client/src/components/Draftail/index.js:153 | different comments get different styles |
| `CommentStyles.StyleForIsCommentStyle` | client/src/components/Draftail/index.js:153-184 | every comment style passes the decorator strategy's `startsWith('COMMENT')` test |
| `CommentStyles.HasCommentStyle` | client/src/components/Draftail/index.js:183-185 | the strategy marks a character iff one of its styles starts with `COMMENT` |
| `CommentStyles.FirstCommentStyle` | client/src/components/Draftail/index.js:165 | `find` returns the first style starting with `COMMENT`, and none iff there is no such style |
| `CommentStyles.DecoratorCommentId` | client/src/components/Draftail/index.js:165 | a TypeError iff no style starts with `COMMENT`; otherwise the parse of the first such style |
| `CommentStyles.DecoratorFindsId` | client/src/components/Draftail/index.js:153-165 | a range whose first comment style was written for an id resolves to that id |
| `DraftailPlugins.RegisterPlugin` | client/src/components/Draftail/index.js:29-32 | the plugin's type maps to the plugin, overwriting any earlier entry; every other entry is unchanged |
| `DraftailPlugins.LastWithKey` | client/src/components/Draftail/index.js:29-32 | the reference for the registry: a plugin registered under the type with no later plugin under it, or none when no plugin has the type |
| `DraftailPlugins.RegisterAllLastWins` | client/src/components/Draftail/index.js:27-32 | after any registrations each type maps to its last plugin; unregistered types keep their entries |
| `DraftailPlugins.WrapWagtailIcon` | client/src/components/Draftail/index.js:38-47 | a non-empty string icon becomes the icon-font element of that name, other properties stay, any other object is returned unchanged, and no icon font remains |
| `DraftailPlugins.WrapIdempotent` | client/src/components/Draftail/index.js:38-47 | wrapping twice equals wrapping once |
| `DraftailPlugins.MergeEntityType` | client/src/components/Draftail/index.js:217-222 | keys of the server's type win, keys only in the plugin keep the plugin's value, and there are no other keys |
| `DraftailPlugins.BuildEditorConfig` | client/src/components/Draftail/index.js:213-226 | missing lists become empty, icons are wrapped, entity types are merged and followed by the comment entity, and the horizontal rule is `false` iff the option is falsy |
| `DraftailPlugins.MissingListsDefaultToEmpty` | client/src/components/Draftail/index.js:213-215 | with no lists given, there are no block types or inline styles, and only the comment entity |
| `DraftailPlugins.IconFontsInConfig` | client/src/components/Draftail/index.js:217-222 | no block type or inline style keeps a string icon; an entity type does only when its plugin supplies a string icon and the server's type has none |
| `DraftailComments.NewInlineAnnotation` | client/src/components/Draftail/index.js:50-58 | a new annotation holds the initial ref and no click handler |
| `DraftailComments.OnDecoratorAttached` | client/src/components/Draftail/index.js:76-78 | the decorator's ref replaces the old one and the handler stays |
| `DraftailComments.SetOnClickHandler` | client/src/components/Draftail/index.js:85-87 | the new handler replaces the previous one |
| `DraftailComments.OnClick` | client/src/components/Draftail/index.js:88-92 | invokes the handler iff one is set; otherwise a no-op |
| `DraftailComments.GetDesiredPosition` | client/src/components/Draftail/index.js:93-99 | reads the ref when asked: 0 while `ref.current` is null, else the node's offset at that moment |
| `DraftailComments.ClickInvokesLatestHandler` | client/src/components/Draftail/index.js:85-92 | after a series of `setOnClickHandler` calls, a click invokes only the last handler |
| `DraftailComments.NewDraftWidget` | client/src/components/Draftail/index.js:103-113 | comments disabled, no annotations, no `makeComment`, count undefined, placeholder content path |
| `DraftailComments.OnRegister` | client/src/components/Draftail/index.js:114-116 | `makeComment` becomes available and nothing else changes |
| `DraftailComments.SetEnabled` | client/src/components/Draftail/index.js:117-120 | records the setting and changes nothing else |
| `DraftailComments.OnChangeComments` | client/src/components/Draftail/index.js:121-124 | the count becomes the list's length and nothing else changes |
| `DraftailComments.CreateComment` | client/src/components/Draftail/index.js:148-156 | a TypeError iff `makeComment` is missing; otherwise the new id maps to an annotation on the field's ref holding whatever click handler `makeComment` installed, other annotations are unchanged, and the selection gets `COMMENT-<id>` |
| `DraftailComments.AnnotationFor` | client/src/components/Draftail/index.js:168-171 | finds the annotation iff the parsed id is a number the widget knows; `NaN` or an unknown id is a TypeError |
| `DraftailComments.AttachDecorator` | client/src/components/Draftail/index.js:167-169 | fails exactly when the lookup fails; otherwise only that annotation takes the decorator's ref |
| `DraftailComments.DecoratorClick` | client/src/components/Draftail/index.js:170-172 | fails exactly when the lookup fails; otherwise invokes what the found annotation's `onClick` invokes |
| `DraftailComments.CreatedCommentIsFound` | client/src/components/Draftail/index.js:150-171 | the span marked at creation leads the decorator back to the annotation created with it, and a click invokes exactly the handler `makeComment` installed, or nothing if it installed none |
| `DraftailComments.AttachedPosition` | client/src/components/Draftail/index.js:93-99 | after the decorator attaches, the annotation reads its position through the decorator's shared ref: the node's offset whenever it is asked, or 0 once the node has unmounted |

## Findings

| source | as written | input that shows it | evidently intended | confidence | as-written member | corrected member |
|---|---|---|---|---|---|---|
| client/src/components/CommentApp/comments.js:22 | `closest('data-contentpath-disabled')` is a tag selector; it matches an element named `data-contentpath-disabled`, not the attribute | an `input` inside `<div data-contentpath="title">` inside `<div data-contentpath-disabled>` gets path `title` | the attribute selector `[data-contentpath-disabled]`, so the path is `''` | medium, not executed | `ContentPath.TagSelectorMissesDisabledAttribute` (`ContentPath.ContentPathOf` with `TagSelector`) | `ContentPath.GetContentPath` with `AttributeSelector`, used by `FieldWidget.InitFieldWidget` |
| client/src/components/CommentApp/comments.js:154-160 | the initial enumeration reads the undeclared `widget` (and then `localId`) | a store holding one comment `{localId: 7, contentpath: 'title'}` when the `title` widget registers: ReferenceError after `setEnabled` and both listeners ran, so the add button gets no click listener and stays without one while the page lives | compare with `this.contentpath` and subscribe with `comment.localId` | high, not executed | `FieldWidget.RegisterAsWritten`, `FieldWidget.RegisterAsWrittenThrows`, `FieldWidget.ThrownRegistrationNeverAdds` | `FieldWidget.Register` |

## Left out

- `initComments` (comments.js:4-18): element lookups, JSON parsing and rendering of the external comment app. These are DOM calls with nothing to state beyond "throws when an element is missing".
- `getAnnotationForComment` (comments.js:187-193): template cloning and insertion. It appears only as the `Annotate` event of `FieldWidget`.
- The add button's click listener (comments.js:161-165) forwards to the external `makeComment` and subscribes the new annotation. Both halves are modelled separately: the id is a parameter and `FieldAnnotation.Subscribe` is the subscription.
- The unsubscribe functions returned by `register` (comments.js:166) are never used by the code.
- `BasicFieldLevelAnnotation.setOnClickHandler` and `getDesiredPosition` (comments.js:99-107): an event-listener registration and float layout arithmetic. The CSS classes set by `onFocus`/`onUnfocus`/`show`/`hide` are reduced to `Look`. The `ariaLabel` is dropped. Note that `onFocus` and `onUnfocus` both set it to `STRINGS.UNFOCUS_COMMENT` (comments.js:85, 89), which looks like a slip for a focus label in `onUnfocus`.
- Both `getDesiredPosition` methods: `getBoundingClientRect().top + scrollTop` is float layout arithmetic. A mounted node's offset is an abstract integer read from a `Dom` argument, and React's mounting and unmounting, which fill and clear a ref, is that argument.
- `forceResetEditorState`, `getPlugin`, `getControl`, the decorator's rendering, `findStyleRanges` and `RichUtils.toggleInlineStyle` (Draftail/index.js:59-71, 128-146, 174-178, 184) belong to Draft.js, Draftail and React. Only the style names, the strategy's per-character filter and the decorator's id lookup are modelled.
- `initEditor`'s DOM work (Draftail/index.js:195-211, 228-237, 251-278): wrapper creation, serialisation, `console.log` and rendering. Only the option defaults and type lists are modelled (`BuildEditorConfig`).
- The widget models and the annotation model are not run together in one store loop. The order in which a store notifies listeners subscribed later is not modelled.
- `DraftailPlugins.TypeKey`: a function or array used as `type` turns into its source text or its joined elements in JavaScript. All non-string objects are modelled as `[object Object]`. Number values are not among the modelled `Value`s.
- `DraftailPlugins.WrapWagtailIcon`: the source mutates its argument with `Object.assign`. The model returns the changed object and does not model the aliasing.
- `JsText.ParseInt`: it returns the exact integer. JavaScript rounds digit strings beyond 2^53 to the nearest double. Comment ids are safe integers, so the round trip is unaffected.
- `FieldWidget.OnStoreChange`: it states which comment ids get an annotation, not the order (store order) in which they are created. The same holds for `FieldWidget.Register`.
- `Store.CommentsFor`: the selector is external. It is modelled as a filter on the content path, and its reference comparison as value comparison. A selector that returns a new but equal list is therefore treated as "unchanged".
- `FieldWidget.InitFieldWidget`: the annotation template `#comment-icon` (comments.js:200) is assumed present. Without it, creating an annotation would throw in `cloneNode` (comments.js:188), which is not modelled.
- `FieldWidget.CommentsListener`: `commentApp.updateAnnotation` (comments.js:146) is assumed not to notify the store's listeners synchronously. Its code is not part of this model. If it does, the listener runs again inside its own `forEach` and annotates the comments still waiting. The outer run then annotates them a second time from its earlier list. `FieldWidget.AnnotatesAtMostOnce` covers only notifications that arrive one after another.
- `CommentStyles.DecoratorCommentId`: strings are sequences of code points, and `slice(8)` counts them. JavaScript counts UTF-16 units. So for a style with a character above U+FFFF in its first 8 units (such as `COMMENT` followed by an emoji, then `5`), the model decodes an id where JavaScript gets `NaN`. Styles written by `StyleFor` are ASCII and unaffected.
- `DraftailPlugins.RegisterPlugin`: a plugin whose type is `__proto__` replaces the registry object's prototype in JavaScript instead of adding an entry. After that, lookups of unregistered types read the plugin's properties. The model treats `__proto__` as an ordinary key, so its "every other entry is unchanged" and `RegisterAllLastWins` exclude that type.

=== FILE: comment_styles.dfy ===
/**
 * The inline-style names that tie a span of rich text to a comment:
 * `COMMENT-<id>` is written when a comment is created and read back by the
 * decorator with `slice(8)` and `parseInt`; the decorator strategy marks
 * every range whose styles include one starting with `COMMENT`.
 */
module CommentStyles {
  import opened Common
  import opened JsText
  import opened Store

  /** What every comment style name starts with. */
  const StylePrefix: string := "COMMENT-"

  /** What the decorator strategy and the decorator look for. */
  const Marker: string := "COMMENT"

  /** The number of characters the decorator drops before parsing the id. */
  const IdOffset: nat := 8

  /** `` `COMMENT-${commentId}` ``. */
  function StyleFor(id: Id): (style: string)
    ensures StartsWith(style, StylePrefix)
    ensures |style| > |StylePrefix| == IdOffset
    ensures style[IdOffset..] == NatToDecimal(id)
  {
    StylePrefix + NatToDecimal(id)
  }

  /** `parseInt(style.slice(8))`; `None` is `NaN`. */
  function IdOf(style: string): Option<int>
  {
    ParseInt(Slice(style, IdOffset))
  }

  /** Reading back the style written for a comment gives the comment's id. */
  lemma IdOfStyleFor(id: Id)
    ensures IdOf(StyleFor(id)) == Some(id)
  {
    assert Slice(StyleFor(id), IdOffset) == NatToDecimal(id);
    ParseIntDecimal(id);
  }

  /** Different comments get different styles. */
  lemma StyleForInjective(a: Id, b: Id)
    requires StyleFor(a) == StyleFor(b)
    ensures a == b
  {
    IdOfStyleFor(a);
    IdOfStyleFor(b);
  }

  /** `style.startsWith('COMMENT')`. */
  predicate IsCommentStyle(style: string)
  {
    StartsWith(style, Marker)
  }

  /** Every style written for a comment is one the strategy recognises. */
  lemma StyleForIsCommentStyle(id: Id)
    ensures IsCommentStyle(StyleFor(id))
  {
    assert StyleFor(id)[..|Marker|] == StylePrefix[..|Marker|];
  }

  /** The strategy's filter, `metadata.getStyle().some((style) => style.startsWith('COMMENT'))`. */
  function HasCommentStyle(styles: seq<string>): (r: bool)
    ensures r <==> exists i :: 0 <= i < |styles| && IsCommentStyle(styles[i])
  {
    if |styles| == 0 then false
    else IsCommentStyle(styles[0]) || HasCommentStyle(styles[1..])
  }

  /** `styles.find((style) => style.startsWith('COMMENT'))`, as a position. */
  function FirstCommentStyle(styles: seq<string>): (r: Option<nat>)
    ensures r.Some? ==> r.value < |styles| && IsCommentStyle(styles[r.value])
    ensures r.Some? ==> forall i :: 0 <= i < r.value ==> !IsCommentStyle(styles[i])
    ensures r.None? <==> !HasCommentStyle(styles)
  {
    if |styles| == 0 then None
    else if IsCommentStyle(styles[0]) then Some(0)
    else
      match FirstCommentStyle(styles[1..])
      case None => None
      case Some(i) => Some(i + 1)
  }

  /** The decorator's id lookup on the styles at the start of its range:
      `find(...)` then `.slice(8)` (a `TypeError` when nothing was found),
      then `parseInt`. */
  function DecoratorCommentId(styles: seq<string>): (r: Result<Option<int>, JsError>)
    ensures r.Err? <==> !HasCommentStyle(styles)
    ensures r.Ok? ==> r.value == IdOf(styles[FirstCommentStyle(styles).value])
  {
    match FirstCommentStyle(styles)
    case None => Err(TypeError)
    case Some(i) => Ok(IdOf(styles[i]))
  }

  /** A range whose first comment style was written for `id` resolves to `id`. */
  lemma DecoratorFindsId(styles: seq<string>, i: nat, id: Id)
    requires i < |styles| && styles[i] == StyleFor(id)
    requires forall j :: 0 <= j < i ==> !IsCommentStyle(styles[j])
    ensures DecoratorCommentId(styles) == Ok(Some(id))
  {
    StyleForIsCommentStyle(id);
    IdOfStyleFor(id);
    var f := FirstCommentStyle(styles);
    assert f == Some(i);
  }
}

=== FILE: common.dfy ===
/** Small failure-aware datatypes shared by every module of the model. */
module Common {

  /** A value that may be absent: JavaScript's `null`/`undefined` next to a real value. */
  datatype Option<+T> = None | Some(value: T)

  /** The outcome of an operation that may throw. */
  datatype Result<+T, +E> = Ok(value: T) | Err(error: E)

  /** The two JavaScript exceptions the modelled code can raise by accident:
      dereferencing `null`/`undefined` and reading an undeclared variable. */
  datatype JsError = TypeError | ReferenceError
}

=== FILE: content_path.dfy ===
/**
 * The content path of a field: the dotted address (`field.block_uid.child`)
 * built from the `data-contentpath` attributes of the field element and its
 * ancestors, outermost first, and empty inside a part of the page marked as
 * not addressable.
 *
 * The DOM is reduced to the chain of elements met by walking up from the
 * field: `chain[0]` is the field element itself and `chain[|chain| - 1]` is
 * the root element, whose `parentElement` is `null`.
 */
module ContentPath {
  import opened Common
  import opened JsText

  /** One element of the chain: its tag name, the value of its
      `data-contentpath` attribute if it has one, and whether it carries the
      `data-contentpath-disabled` attribute. */
  datatype Node = Node(tag: string, contentPath: Option<string>, disabledAttribute: bool)

  /** The two readings of the "paths disabled" test. The code passes the bare
      name to `closest`, which makes it a tag selector; the attribute selector
      is what the name evidently means. */
  datatype DisabledTest = TagSelector | AttributeSelector

  const DisabledMarker: string := "data-contentpath-disabled"

  predicate IsDisabled(test: DisabledTest, n: Node)
  {
    match test
    case TagSelector => n.tag == DisabledMarker
    case AttributeSelector => n.disabledAttribute
  }

  /** `fieldNode.closest(<disabled test>)` finds an element. */
  predicate AnyDisabled(test: DisabledTest, chain: seq<Node>)
  {
    exists i :: 0 <= i < |chain| && IsDisabled(test, chain[i])
  }

  /** The element matches `[data-contentpath]`. */
  predicate Bears(n: Node)
  {
    n.contentPath.Some?
  }

  /** The root element carries a path segment: the walk reaches it and then
      asks for the `closest` of its `null` parent. */
  predicate RootBears(chain: seq<Node>)
  {
    |chain| > 0 && Bears(chain[|chain| - 1])
  }

  /** `chain[from].closest('[data-contentpath]')`: the nearest path-bearing
      element at or above position `from`. */
  function Closest(chain: seq<Node>, from: nat): (r: Option<nat>)
    requires from <= |chain|
    ensures r.Some? ==> from <= r.value < |chain| && Bears(chain[r.value])
    ensures r.Some? ==> forall i :: from <= i < r.value ==> !Bears(chain[i])
    ensures r.None? ==> forall i :: from <= i < |chain| ==> !Bears(chain[i])
    decreases |chain| - from
  {
    if from == |chain| then None
    else if Bears(chain[from]) then Some(from)
    else Closest(chain, from + 1)
  }

  /** The segments of the path-bearing elements at or above position `from`,
      in the order the walk meets them: innermost first. */
  function SegmentsFrom(chain: seq<Node>, from: nat): seq<string>
    decreases |chain| - from
  {
    if from >= |chain| then []
    else (if Bears(chain[from]) then [chain[from].contentPath.value] else []) + SegmentsFrom(chain, from + 1)
  }

  /** All segments, innermost first. */
  function InnerSegments(chain: seq<Node>): seq<string>
  {
    SegmentsFrom(chain, 0)
  }

  /** All segments, outermost first, as they appear in the content path. */
  function Segments(chain: seq<Node>): seq<string>
  {
    Reverse(InnerSegments(chain))
  }

  /** Number of path-bearing elements at or above position `from`. */
  function CountFrom(chain: seq<Node>, from: nat): nat
    decreases |chain| - from
  {
    if from >= |chain| then 0
    else (if Bears(chain[from]) then 1 else 0) + CountFrom(chain, from + 1)
  }

  function CountBearing(chain: seq<Node>): nat
  {
    CountFrom(chain, 0)
  }

  /** The content path, stated declaratively: empty when a disabled element is
      found, a `TypeError` when the root element itself carries a segment,
      otherwise the segments joined with `.`. */
  function ContentPathOf(chain: seq<Node>, test: DisabledTest): (r: Result<string, JsError>)
    ensures AnyDisabled(test, chain) ==> r == Ok("")
    ensures CountBearing(chain) == 0 ==> r == Ok("")
    ensures r.Err? <==> !AnyDisabled(test, chain) && RootBears(chain)
  {
    if AnyDisabled(test, chain) then Ok("")
    else if RootBears(chain) then
      CountAbove(chain, 0, |chain| - 1);
      Err(TypeError)
    else
      SegmentsLength(chain, 0);
      Ok(Join(Segments(chain), '.'))
  }

  /** `getContentPath`: the walk up the DOM, step by step. */
  method GetContentPath(chain: seq<Node>, test: DisabledTest) returns (r: Result<string, JsError>)
    ensures r == ContentPathOf(chain, test)
  {
    var disabled := FindDisabled(chain, test);
    if disabled {
      return Ok("");
    }
    var collected := CollectSegments(chain);
    match collected
    case Err(e) =>
      r := Err(e);
    case Ok(paths) =>
      r := Ok(Join(Reverse(paths), '.'));
  }

  /** `fieldNode.closest(<disabled test>) !== null`, walking up one element at a time. */
  method FindDisabled(chain: seq<Node>, test: DisabledTest) returns (found: bool)
    ensures found == AnyDisabled(test, chain)
  {
    var k := 0;
    while k < |chain|
      invariant k <= |chain|
      invariant forall j :: 0 <= j < k ==> !IsDisabled(test, chain[j])
    {
      if IsDisabled(test, chain[k]) {
        return true;
      }
      k := k + 1;
    }
    return false;
  }

  /** The `while (element !== null)` loop: pushes the segment of every
      path-bearing element, innermost first, and fails on the `null` parent of
      a path-bearing root. */
  method CollectSegments(chain: seq<Node>) returns (r: Result<seq<string>, JsError>)
    ensures RootBears(chain) ==> r == Err(TypeError)
    ensures !RootBears(chain) ==> r == Ok(InnerSegments(chain))
  {
    var element := Closest(chain, 0);
    var paths: seq<string> := [];
    Walked(chain, 0, paths, element);
    while element.Some?
      invariant WalkInvariant(chain, paths, element)
      decreases if element.Some? then |chain| - element.value else 0
    {
      var at := element.value;
      paths := paths + [chain[at].contentPath.value];
      if at + 1 == |chain| {
        return Err(TypeError);
      }
      element := Closest(chain, at + 1);
      Walked(chain, at + 1, paths, element);
    }
    return Ok(paths);
  }

  /** What the walk knows when it is about to visit `element`: the segments
      collected so far followed by those still ahead make up the whole list. */
  ghost predicate WalkInvariant(chain: seq<Node>, paths: seq<string>, element: Option<nat>)
  {
    match element
    case Some(at) =>
      && at < |chain| && Bears(chain[at])
      && paths + [chain[at].contentPath.value] + SegmentsFrom(chain, at + 1) == InnerSegments(chain)
    case None =>
      paths == InnerSegments(chain) && !RootBears(chain)
  }

  /** One step of the walk: with `paths` collected from every path-bearing
      element below position `from`, the next `closest` result satisfies the
      invariant. */
  lemma Walked(chain: seq<Node>, from: nat, paths: seq<string>, element: Option<nat>)
    requires from == 0 || from < |chain|
    requires paths + SegmentsFrom(chain, from) == InnerSegments(chain)
    requires element == Closest(chain, from)
    ensures WalkInvariant(chain, paths, element)
  {
    SkipPlain(chain, from, if element.Some? then element.value else |chain|);
  }

  /** Elements without a segment add nothing to the path. */
  lemma {:induction false} SkipPlain(chain: seq<Node>, from: nat, to: nat)
    requires from <= to <= |chain|
    requires forall i :: from <= i < to ==> !Bears(chain[i])
    ensures SegmentsFrom(chain, from) == SegmentsFrom(chain, to)
    decreases |chain| - from
  {
    if from < to {
      SkipPlain(chain, from + 1, to);
    }
  }

  lemma {:induction false} SegmentsLength(chain: seq<Node>, from: nat)
    ensures |SegmentsFrom(chain, from)| == CountFrom(chain, from)
    decreases |chain| - from
  {
    if from < |chain| {
      SegmentsLength(chain, from + 1);
    }
  }

  /** A path-bearing element at `i` counts among the elements at or above any lower position. */
  lemma {:induction false} CountAbove(chain: seq<Node>, from: nat, i: nat)
    requires from <= i < |chain| && Bears(chain[i])
    ensures CountFrom(chain, from) >= CountFrom(chain, i) == CountFrom(chain, i + 1) + 1
    decreases |chain| - from
  {
    if from < i {
      CountAbove(chain, from + 1, i);
    }
  }

  lemma {:induction false} InnerPlacement(chain: seq<Node>, from: nat, i: nat)
    requires from <= i < |chain| && Bears(chain[i])
    ensures CountFrom(chain, i) <= CountFrom(chain, from)
    ensures CountFrom(chain, from) - CountFrom(chain, i) < |SegmentsFrom(chain, from)|
    ensures SegmentsFrom(chain, from)[CountFrom(chain, from) - CountFrom(chain, i)] == chain[i].contentPath.value
    decreases |chain| - from
  {
    SegmentsLength(chain, from);
    CountAbove(chain, from, i);
    if from < i {
      InnerPlacement(chain, from + 1, i);
      var head := if Bears(chain[from]) then [chain[from].contentPath.value] else [];
      assert SegmentsFrom(chain, from) == head + SegmentsFrom(chain, from + 1);
      assert CountFrom(chain, from) == |head| + CountFrom(chain, from + 1);
    }
  }

  /** Every path-bearing element contributes its segment exactly once: the
      segments are as many as the path-bearing elements, and the segment of
      the element at position `i` comes right after the segments of the
      path-bearing elements above it. */
  lemma SegmentPlacement(chain: seq<Node>, i: nat)
    requires i < |chain| && Bears(chain[i])
    ensures |Segments(chain)| == CountBearing(chain)
    ensures CountFrom(chain, i + 1) < |Segments(chain)|
    ensures Segments(chain)[CountFrom(chain, i + 1)] == chain[i].contentPath.value
  {
    SegmentsLength(chain, 0);
    InnerPlacement(chain, 0, i);
    CountAbove(chain, 0, i);
  }

  lemma {:induction false} SegmentsAppend(chain: seq<Node>, n: Node, from: nat)
    requires from <= |chain|
    ensures SegmentsFrom(chain + [n], from) == SegmentsFrom(chain, from) + (if Bears(n) then [n.contentPath.value] else [])
    decreases |chain| - from
  {
    var tail := if Bears(n) then [n.contentPath.value] else [];
    if from < |chain| {
      assert (chain + [n])[from] == chain[from];
      SegmentsAppend(chain, n, from + 1);
    } else {
      assert (chain + [n])[from] == n;
      assert SegmentsFrom(chain + [n], from + 1) == [];
      assert SegmentsFrom(chain + [n], from) == tail;
    }
  }

  lemma {:induction false} SegmentsShift(n: Node, chain: seq<Node>, from: nat)
    ensures SegmentsFrom([n] + chain, from + 1) == SegmentsFrom(chain, from)
    decreases |chain| - from
  {
    if from < |chain| {
      assert ([n] + chain)[from + 1] == chain[from];
      SegmentsShift(n, chain, from + 1);
    }
  }

  /** A path-bearing element further out puts its segment at the front. */
  lemma OuterAncestorComesFirst(chain: seq<Node>, n: Node)
    requires Bears(n)
    ensures Segments(chain + [n]) == [n.contentPath.value] + Segments(chain)
  {
    SegmentsAppend(chain, n, 0);
    ReverseAppend(InnerSegments(chain), [n.contentPath.value]);
  }

  /** A path-bearing element further in puts its segment at the end. */
  lemma InnerNodeComesLast(n: Node, chain: seq<Node>)
    requires Bears(n)
    ensures Segments([n] + chain) == Segments(chain) + [n.contentPath.value]
  {
    SegmentsShift(n, chain, 0);
    assert InnerSegments([n] + chain) == [n.contentPath.value] + InnerSegments(chain);
    ReverseAppend([n.contentPath.value], InnerSegments(chain));
  }

  /** When no segment contains a dot, the content path splits back into its segments. */
  lemma PathSplitsIntoSegments(chain: seq<Node>, test: DisabledTest)
    requires !AnyDisabled(test, chain) && !RootBears(chain)
    requires CountBearing(chain) > 0
    requires forall i :: 0 <= i < |chain| && Bears(chain[i]) ==> '.' !in chain[i].contentPath.value
    ensures ContentPathOf(chain, test).Ok?
    ensures Split(ContentPathOf(chain, test).value, '.') == Segments(chain)
  {
    var segs := Segments(chain);
    assert ContentPathOf(chain, test) == Ok(Join(segs, '.'));
    SegmentsLength(chain, 0);
    forall k | 0 <= k < |segs|
      ensures '.' !in segs[k]
    {
      NoDotInSegments(chain, 0, |segs| - 1 - k);
    }
    SplitJoin(segs, '.');
  }

  lemma {:induction false} NoDotInSegments(chain: seq<Node>, from: nat, k: nat)
    requires forall i :: 0 <= i < |chain| && Bears(chain[i]) ==> '.' !in chain[i].contentPath.value
    requires k < |SegmentsFrom(chain, from)|
    ensures '.' !in SegmentsFrom(chain, from)[k]
    decreases |chain| - from
  {
    if !Bears(chain[from]) {
      NoDotInSegments(chain, from + 1, k);
    } else if k > 0 {
      NoDotInSegments(chain, from + 1, k - 1);
    }
  }

  /** Read as written, the disabled test looks for an element NAMED
      `data-contentpath-disabled`, so a field inside an element that carries
      the `data-contentpath-disabled` attribute still gets a path. */
  lemma TagSelectorMissesDisabledAttribute()
    ensures
      var chain := [
        Node("input", None, false),
        Node("div", Some("title"), false),
        Node("div", None, true),
        Node("html", None, false)];
      && ContentPathOf(chain, TagSelector) == Ok("title")
      && ContentPathOf(chain, AttributeSelector) == Ok("")
  {
    var chain := [
      Node("input", None, false),
      Node("div", Some("title"), false),
      Node("div", None, true),
      Node("html", None, false)];
    assert IsDisabled(AttributeSelector, chain[2]);
    assert !AnyDisabled(TagSelector, chain) by {
      assert chain[0].tag != DisabledMarker;
      assert chain[1].tag != DisabledMarker;
      assert chain[2].tag != DisabledMarker;
      assert chain[3].tag != DisabledMarker;
    }
    SkipPlain(chain, 2, 4);
    assert InnerSegments(chain) == ["title"];
  }
}

=== FILE: draftail_comments.dfy ===
/**
 * The comment side of the rich-text editor: `DraftailInlineAnnotation`, the
 * annotation bound to a decorated span, and `DraftailCommentWidget`, which
 * creates comments on the current selection (marking the selection with the
 * comment's style) and lets the decorator find the annotation again from
 * the style.
 */
module DraftailComments {
  import opened Common
  import opened Store
  import opened CommentStyles

  /** A click handler, told apart by identity. */
  type Handler = nat

  /** A ref object (`{current: ...}` or React's `useRef`), told apart by
      identity: annotations share the object, not a copy of its `current`. */
  type Ref = nat

  /** What each ref's `current` holds at the moment it is read: the node's
      offset from the top of the document. A ref missing from the map holds
      `null`, as React leaves a decorator's ref once its node unmounts. */
  type Dom = map<Ref, int>

  /** The annotation's ref and click handler. Its `onDelete`, `onFocus`,
      `onUnfocus`, `show` and `hide` have empty bodies and change nothing. */
  datatype InlineAnnotation = InlineAnnotation(ref: Ref, onClickHandler: Option<Handler>)

  /** The constructor: the initial ref, no click handler. */
  function NewInlineAnnotation(initialRef: Ref): (a: InlineAnnotation)
    ensures a.ref == initialRef && a.onClickHandler == None
  {
    InlineAnnotation(initialRef, None)
  }

  /** `onDecoratorAttached(ref)`: the decorator's ref replaces the old one. */
  function OnDecoratorAttached(a: InlineAnnotation, ref: Ref): (r: InlineAnnotation)
    ensures r.ref == ref && r.onClickHandler == a.onClickHandler
  {
    a.(ref := ref)
  }

  /** `setOnClickHandler(handler)`: replaces the previous handler; `None` is
      `null`/`undefined`. */
  function SetOnClickHandler(a: InlineAnnotation, handler: Option<Handler>): (r: InlineAnnotation)
    ensures r.onClickHandler == handler && r.ref == a.ref
  {
    a.(onClickHandler := handler)
  }

  /** `onClick()`: the handlers invoked, which is the set handler or none. */
  function OnClick(a: InlineAnnotation): (invoked: seq<Handler>)
    ensures |invoked| <= 1
    ensures invoked == [] <==> a.onClickHandler == None
    ensures forall h :: h in invoked ==> a.onClickHandler == Some(h)
  {
    match a.onClickHandler
    case None => []
    case Some(h) => [h]
  }

  /** `getDesiredPosition()`: reads `ref.current` now; the node's offset,
      or 0 while the ref holds `null`. */
  function GetDesiredPosition(a: InlineAnnotation, dom: Dom): (top: int)
    ensures a.ref !in dom ==> top == 0
    ensures a.ref in dom ==> top == dom[a.ref]
  {
    if a.ref in dom then dom[a.ref] else 0
  }

  /** Handlers set one after the other. */
  function SetHandlers(a: InlineAnnotation, handlers: seq<Handler>): InlineAnnotation
    decreases |handlers|
  {
    if |handlers| == 0 then a
    else SetOnClickHandler(SetHandlers(a, handlers[..|handlers| - 1]), Some(handlers[|handlers| - 1]))
  }

  /** A click invokes only the handler set last; earlier ones are forgotten. */
  lemma {:induction false} ClickInvokesLatestHandler(a: InlineAnnotation, handlers: seq<Handler>)
    ensures |handlers| > 0 ==> OnClick(SetHandlers(a, handlers)) == [handlers[|handlers| - 1]]
    ensures |handlers| == 0 ==> OnClick(SetHandlers(a, handlers)) == OnClick(a)
    ensures SetHandlers(a, handlers).ref == a.ref
    decreases |handlers|
  {
    if |handlers| > 0 {
      ClickInvokesLatestHandler(a, handlers[..|handlers| - 1]);
    }
  }

  // ---------------------------------------------------------------------------
  // DraftailCommentWidget

  /** The content path the widget uses for now, a fixed placeholder. */
  const PlaceholderContentPath: string := "test_content_path"

  /** The widget's state: whether `makeComment` has been supplied by
      `onRegister`, the annotations by comment id, and the comment count,
      which is `undefined` until the first `onChangeComments`. */
  datatype DraftWidget = DraftWidget(
    contentPath: string,
    commentsEnabled: bool,
    annotations: map<Id, InlineAnnotation>,
    canMakeComment: bool,
    commentNumber: Option<nat>)

  /** The constructor. */
  function NewDraftWidget(): (w: DraftWidget)
    ensures w.contentPath == PlaceholderContentPath
    ensures !w.commentsEnabled && w.annotations == map[] && !w.canMakeComment && w.commentNumber == None
  {
    DraftWidget(PlaceholderContentPath, false, map[], false, None)
  }

  /** `onRegister(makeComment)`. */
  function OnRegister(w: DraftWidget): (r: DraftWidget)
    ensures r.canMakeComment
    ensures r.annotations == w.annotations && r.commentsEnabled == w.commentsEnabled && r.commentNumber == w.commentNumber
    ensures r.contentPath == w.contentPath
  {
    w.(canMakeComment := true)
  }

  /** `setEnabled(enabled)`: records the setting; nothing is shown or hidden. */
  function SetEnabled(w: DraftWidget, enabled: bool): (r: DraftWidget)
    ensures r.commentsEnabled == enabled
    ensures r.annotations == w.annotations && r.commentNumber == w.commentNumber && r.canMakeComment == w.canMakeComment
    ensures r.contentPath == w.contentPath
  {
    w.(commentsEnabled := enabled)
  }

  /** `onChangeComments(comments)`: the count becomes the list's length. */
  function OnChangeComments(w: DraftWidget, comments: seq<Comment>): (r: DraftWidget)
    ensures r.commentNumber == Some(|comments|)
    ensures r.annotations == w.annotations && r.commentsEnabled == w.commentsEnabled && r.canMakeComment == w.canMakeComment
    ensures r.contentPath == w.contentPath
  {
    w.(commentNumber := Some(|comments|))
  }

  /** A created comment: the widget with the new annotation and the inline
      style toggled on the selection. */
  datatype Created = Created(widget: DraftWidget, style: string)

  /** The comment source's mount effect: a new annotation on the field's ref
      is handed to `makeComment`, which returns a comment id from the store
      (`freshId`) and may install a click handler on the annotation
      (`handlerSet`, `None` when it installs none). The annotation is then
      recorded under that id, and the selection gets the style
      `COMMENT-<id>`. Calling the missing `makeComment` before `onRegister` is
      a `TypeError`. */
  function CreateComment(w: DraftWidget, fieldRef: Ref, freshId: Id, handlerSet: Option<Handler>): (r: Result<Created, JsError>)
    ensures r.Err? <==> !w.canMakeComment
    ensures r.Ok? ==> r.value.style == StyleFor(freshId)
    ensures r.Ok? ==> r.value.widget.annotations.Keys == w.annotations.Keys + {freshId}
    ensures r.Ok? ==> r.value.widget.annotations[freshId].ref == fieldRef
    ensures r.Ok? ==> r.value.widget.annotations[freshId].onClickHandler == handlerSet
    ensures r.Ok? ==> forall id :: id in w.annotations && id != freshId ==>
      r.value.widget.annotations[id] == w.annotations[id]
    ensures r.Ok? ==>
      && r.value.widget.contentPath == w.contentPath && r.value.widget.commentsEnabled == w.commentsEnabled
      && r.value.widget.canMakeComment == w.canMakeComment && r.value.widget.commentNumber == w.commentNumber
  {
    if !w.canMakeComment then Err(TypeError)
    else
      var annotation := SetOnClickHandler(NewInlineAnnotation(fieldRef), handlerSet);
      Ok(Created(w.(annotations := w.annotations[freshId := annotation]), StyleFor(freshId)))
  }

  /** `this.annotations.get(commentId)` followed by a method call: a
      `TypeError` when the id is `NaN` or unknown. */
  function AnnotationFor(w: DraftWidget, commentId: Option<int>): (r: Result<InlineAnnotation, JsError>)
    ensures r.Ok? <==> commentId.Some? && IsId(commentId.value) && commentId.value as Id in w.annotations
    ensures r.Ok? ==> r.value == w.annotations[commentId.value as Id]
  {
    match commentId
    case None => Err(TypeError)
    case Some(n) =>
      if IsId(n) && n as Id in w.annotations then Ok(w.annotations[n as Id])
      else Err(TypeError)
  }

  /** The annotation the decorator finds from the styles at the start of its range. */
  function DecoratorAnnotation(w: DraftWidget, styles: seq<string>): Result<InlineAnnotation, JsError>
  {
    match DecoratorCommentId(styles)
    case Err(e) => Err(e)
    case Ok(commentId) => AnnotationFor(w, commentId)
  }

  /** The decorator's effect after render: the annotation takes the
      decorator's ref. */
  function AttachDecorator(w: DraftWidget, styles: seq<string>, ref: Ref): (r: Result<DraftWidget, JsError>)
    ensures r.Err? <==> DecoratorAnnotation(w, styles).Err?
    ensures r.Ok? ==> r.value.annotations.Keys == w.annotations.Keys
    ensures r.Ok? ==> var id := DecoratorCommentId(styles).value.value as Id;
      r.value.annotations[id] == OnDecoratorAttached(w.annotations[id], ref)
    ensures r.Ok? ==> forall k :: k in w.annotations && Some(k as int) != DecoratorCommentId(styles).value ==>
      r.value.annotations[k] == w.annotations[k]
    ensures r.Ok? ==>
      && r.value.contentPath == w.contentPath && r.value.commentsEnabled == w.commentsEnabled
      && r.value.canMakeComment == w.canMakeComment && r.value.commentNumber == w.commentNumber
  {
    match DecoratorCommentId(styles)
    case Err(e) => Err(e)
    case Ok(commentId) =>
      match AnnotationFor(w, commentId)
      case Err(e) => Err(e)
      case Ok(a) =>
        var id := commentId.value as Id;
        Ok(w.(annotations := w.annotations[id := OnDecoratorAttached(a, ref)]))
  }

  /** The decorator's click handler: the handlers the annotation invokes. */
  function DecoratorClick(w: DraftWidget, styles: seq<string>): (r: Result<seq<Handler>, JsError>)
    ensures r.Err? <==> DecoratorAnnotation(w, styles).Err?
    ensures r.Ok? ==> r.value == OnClick(DecoratorAnnotation(w, styles).value)
  {
    match DecoratorAnnotation(w, styles)
    case Err(e) => Err(e)
    case Ok(a) => Ok(OnClick(a))
  }

  /** The span marked when a comment was created leads the decorator back to
      that comment's annotation, as long as no other comment style comes
      first in the span's styles. */
  lemma CreatedCommentIsFound(w: DraftWidget, fieldRef: Ref, freshId: Id, handlerSet: Option<Handler>, styles: seq<string>, i: nat)
    requires CreateComment(w, fieldRef, freshId, handlerSet).Ok?
    requires i < |styles| && styles[i] == CreateComment(w, fieldRef, freshId, handlerSet).value.style
    requires forall j :: 0 <= j < i ==> !IsCommentStyle(styles[j])
    ensures DecoratorAnnotation(CreateComment(w, fieldRef, freshId, handlerSet).value.widget, styles).Ok?
    ensures DecoratorAnnotation(CreateComment(w, fieldRef, freshId, handlerSet).value.widget, styles).value.ref == fieldRef
    ensures DecoratorClick(CreateComment(w, fieldRef, freshId, handlerSet).value.widget, styles) ==
      Ok(if handlerSet.Some? then [handlerSet.value] else [])
  {
    DecoratorFindsId(styles, i, freshId);
  }

  /** Once the decorator has attached, the annotation's position is read
      through the decorator's ref whenever it is asked for: the decorator
      node's offset at that time, or 0 after the node has unmounted. */
  lemma AttachedPosition(w: DraftWidget, styles: seq<string>, ref: Ref, dom: Dom)
    requires AttachDecorator(w, styles, ref).Ok?
    ensures DecoratorAnnotation(AttachDecorator(w, styles, ref).value, styles).Ok?
    ensures GetDesiredPosition(DecoratorAnnotation(AttachDecorator(w, styles, ref).value, styles).value, dom) ==
      (if ref in dom then dom[ref] else 0)
  {
  }
}

=== FILE: draftail_plugins.dfy ===
/**
 * The plugin and option plumbing of the rich-text editor set-up: the
 * client-side plugin registry, the icon-font wrapper, the merge of a
 * registered plugin with the entity type the server describes, and the
 * defaults applied to the editor options.
 */
module DraftailPlugins {
  import opened Common

  /** The JavaScript values these functions inspect. */
  datatype Value =
    | Str(s: string)
    | Bool(b: bool)
    | IconElement(name: string)   // the element `<Icon name={name} />`
    | Other(id: nat)              // any other object, told apart only by identity

  /** A plain object: its own enumerable properties. */
  type Obj = map<string, Value>

  /** Reading a property; `None` is `undefined`. */
  function Get(o: Obj, key: string): (r: Option<Value>)
    ensures r.Some? <==> key in o
    ensures r.Some? ==> r.value == o[key]
  {
    if key in o then Some(o[key]) else None
  }

  /** JavaScript truthiness of a property value (`undefined` is falsy). */
  predicate Truthy(v: Option<Value>)
  {
    match v
    case None => false
    case Some(Str(s)) => |s| > 0
    case Some(Bool(b)) => b
    case Some(IconElement(_)) => true
    case Some(Other(_)) => true
  }

  /** The property key `obj.type` turns into when it indexes an object. */
  function TypeKey(o: Obj): string
  {
    match Get(o, "type")
    case None => "undefined"
    case Some(Str(s)) => s
    case Some(Bool(b)) => if b then "true" else "false"
    case Some(IconElement(_)) => "[object Object]"
    case Some(Other(_)) => "[object Object]"
  }

  // ---------------------------------------------------------------------------
  // Plugin registry

  /** The module-level `PLUGINS` object, passed explicitly. */
  type Registry = map<string, Obj>

  /** `registerPlugin(plugin)`: `PLUGINS[plugin.type] = plugin`. */
  function RegisterPlugin(registry: Registry, plugin: Obj): (r: Registry)
    ensures TypeKey(plugin) in r && r[TypeKey(plugin)] == plugin
    ensures r.Keys == registry.Keys + {TypeKey(plugin)}
    ensures forall k :: k in registry && k != TypeKey(plugin) ==> r[k] == registry[k]
  {
    registry[TypeKey(plugin) := plugin]
  }

  /** Several `registerPlugin` calls, in order. */
  function RegisterAll(registry: Registry, plugins: seq<Obj>): Registry
    decreases |plugins|
  {
    if |plugins| == 0 then registry
    else RegisterPlugin(RegisterAll(registry, plugins[..|plugins| - 1]), plugins[|plugins| - 1])
  }

  /** No plugin after position `i` is registered under `key`. */
  predicate NoneLaterWithKey(plugins: seq<Obj>, i: nat, key: string)
  {
    forall j :: i < j < |plugins| ==> TypeKey(plugins[j]) != key
  }

  /** The last plugin in the list registered under `key`, if any. */
  function LastWithKey(plugins: seq<Obj>, key: string): (r: Option<Obj>)
    ensures r.Some? ==> TypeKey(r.value) == key
    ensures r.Some? ==>
      exists i :: 0 <= i < |plugins| && plugins[i] == r.value && NoneLaterWithKey(plugins, i, key)
    ensures r.None? ==> forall i :: 0 <= i < |plugins| ==> TypeKey(plugins[i]) != key
    decreases |plugins|
  {
    var n := |plugins|;
    if n == 0 then None
    else if TypeKey(plugins[n - 1]) == key then
      assert NoneLaterWithKey(plugins, n - 1, key);
      Some(plugins[n - 1])
    else
      var init := plugins[..n - 1];
      var r := LastWithKey(init, key);
      assert forall i :: 0 <= i < n - 1 ==> plugins[i] == init[i];
      assert r.Some? ==> exists i :: 0 <= i < n && plugins[i] == r.value && NoneLaterWithKey(plugins, i, key) by {
        if r.Some? {
          var i :| 0 <= i < n - 1 && init[i] == r.value && NoneLaterWithKey(init, i, key);
          assert NoneLaterWithKey(plugins, i, key);
        }
      }
      r
  }

  /** After any series of registrations each type maps to the plugin
      registered last for it; types nobody registered keep their entry. */
  lemma {:induction false} RegisterAllLastWins(registry: Registry, plugins: seq<Obj>, key: string)
    ensures LastWithKey(plugins, key).Some? ==>
      key in RegisterAll(registry, plugins) && RegisterAll(registry, plugins)[key] == LastWithKey(plugins, key).value
    ensures LastWithKey(plugins, key).None? ==>
      && (key in RegisterAll(registry, plugins) <==> key in registry)
      && (key in registry ==> RegisterAll(registry, plugins)[key] == registry[key])
    decreases |plugins|
  {
    if |plugins| > 0 {
      RegisterAllLastWins(registry, plugins[..|plugins| - 1], key);
    }
  }

  // ---------------------------------------------------------------------------
  // Icons

  /** `type.icon && typeof type.icon === 'string'`. */
  predicate IsIconFont(t: Obj)
  {
    Truthy(Get(t, "icon")) && Get(t, "icon").value.Str?
  }

  /** `wrapWagtailIcon(type)`: a non-empty string icon becomes the icon-font
      element of that name; anything else is returned unchanged. */
  function WrapWagtailIcon(t: Obj): (r: Obj)
    ensures r.Keys == t.Keys
    ensures forall k :: k in t && k != "icon" ==> r[k] == t[k]
    ensures IsIconFont(t) ==> r["icon"] == IconElement(t["icon"].s)
    ensures !IsIconFont(t) ==> r == t
    ensures !IsIconFont(r)
  {
    if IsIconFont(t) then t["icon" := IconElement(t["icon"].s)] else t
  }

  /** Wrapping twice is wrapping once. */
  lemma WrapIdempotent(t: Obj)
    ensures WrapWagtailIcon(WrapWagtailIcon(t)) == WrapWagtailIcon(t)
  {
  }

  // ---------------------------------------------------------------------------
  // Entity types

  /** `Object.assign({}, PLUGINS[type.type], type)`: the server's description
      wins, and the plugin fills in only what the description lacks. */
  function MergeEntityType(registry: Registry, t: Obj): (r: Obj)
    ensures forall k :: k in t ==> k in r && r[k] == t[k]
    ensures TypeKey(t) in registry ==>
      forall k :: k in registry[TypeKey(t)] && k !in t ==> k in r && r[k] == registry[TypeKey(t)][k]
    ensures forall k :: k in r ==> k in t || (TypeKey(t) in registry && k in registry[TypeKey(t)])
  {
    if TypeKey(t) in registry then registry[TypeKey(t)] + t else t
  }

  // ---------------------------------------------------------------------------
  // Editor options

  /** The options the editor set-up reads. A list is `None` when the option is
      missing or falsy. */
  datatype Options = Options(
    blockTypes: Option<seq<Obj>>,
    inlineStyles: Option<seq<Obj>>,
    entityTypes: Option<seq<Obj>>,
    enableHorizontalRule: Option<Value>)

  /** `enableHorizontalRule`: `false`, or an object carrying the label. */
  datatype HorizontalRule = RuleDisabled | RuleEnabled(description: string)

  /** The lists and the horizontal-rule setting handed to the editor. */
  datatype EditorConfig = EditorConfig(
    blockTypes: seq<Obj>,
    inlineStyles: seq<Obj>,
    entityTypes: seq<Obj>,
    horizontalRule: HorizontalRule)

  /** `options.x || []`. */
  function OrEmpty(list: Option<seq<Obj>>): (r: seq<Obj>)
    ensures list.None? ==> r == []
    ensures list.Some? ==> r == list.value
  {
    match list
    case None => []
    case Some(l) => l
  }

  function WrapAll(ts: seq<Obj>): (r: seq<Obj>)
    ensures |r| == |ts|
    ensures forall i :: 0 <= i < |ts| ==> r[i] == WrapWagtailIcon(ts[i])
  {
    seq(|ts|, i requires 0 <= i < |ts| => WrapWagtailIcon(ts[i]))
  }

  /** The options as `initEditor` passes them to the editor: icons wrapped,
      entity types merged with their plugins and followed by the comment
      entity, and the horizontal rule turned into `false` or its label. */
  function BuildEditorConfig(options: Options, registry: Registry, ruleLabel: string, commentEntity: Obj): (c: EditorConfig)
    ensures c.blockTypes == WrapAll(OrEmpty(options.blockTypes))
    ensures c.inlineStyles == WrapAll(OrEmpty(options.inlineStyles))
    ensures |c.entityTypes| == |OrEmpty(options.entityTypes)| + 1
    ensures c.entityTypes[|c.entityTypes| - 1] == commentEntity
    ensures forall i :: 0 <= i < |OrEmpty(options.entityTypes)| ==>
      c.entityTypes[i] == MergeEntityType(registry, WrapWagtailIcon(OrEmpty(options.entityTypes)[i]))
    ensures c.horizontalRule == RuleDisabled <==> !Truthy(options.enableHorizontalRule)
    ensures c.horizontalRule.RuleEnabled? ==> c.horizontalRule.description == ruleLabel
  {
    var given := OrEmpty(options.entityTypes);
    var merged := seq(|given|, i requires 0 <= i < |given| => MergeEntityType(registry, WrapWagtailIcon(given[i])));
    EditorConfig(
      WrapAll(OrEmpty(options.blockTypes)),
      WrapAll(OrEmpty(options.inlineStyles)),
      merged + [commentEntity],
      if Truthy(options.enableHorizontalRule) then RuleEnabled(ruleLabel) else RuleDisabled)
  }

  /** With no lists given, the editor gets no block types, no inline styles
      and only the comment entity. */
  lemma MissingListsDefaultToEmpty(registry: Registry, ruleLabel: string, commentEntity: Obj, rule: Option<Value>)
    ensures
      var c := BuildEditorConfig(Options(None, None, None, rule), registry, ruleLabel, commentEntity);
      c.blockTypes == [] && c.inlineStyles == [] && c.entityTypes == [commentEntity]
  {
  }

  /** No block type or inline style reaches the editor with a string icon,
      and an entity type does only when the server's description has no
      `icon` and its plugin's `icon` is a string: the plugin's icon is
      merged in after the wrapping. */
  lemma IconFontsInConfig(options: Options, registry: Registry, ruleLabel: string, commentEntity: Obj)
    ensures
      var c := BuildEditorConfig(options, registry, ruleLabel, commentEntity);
      && (forall i :: 0 <= i < |c.blockTypes| ==> !IsIconFont(c.blockTypes[i]))
      && (forall i :: 0 <= i < |c.inlineStyles| ==> !IsIconFont(c.inlineStyles[i]))
      && (forall i :: 0 <= i < |OrEmpty(options.entityTypes)| && IsIconFont(c.entityTypes[i]) ==>
            var t := OrEmpty(options.entityTypes)[i];
            "icon" !in t && TypeKey(t) in registry && IsIconFont(registry[TypeKey(t)]))
  {
    var c := BuildEditorConfig(options, registry, ruleLabel, commentEntity);
    var given := OrEmpty(options.entityTypes);
    forall i | 0 <= i < |given| && IsIconFont(c.entityTypes[i])
      ensures "icon" !in given[i] && TypeKey(given[i]) in registry && IsIconFont(registry[TypeKey(given[i])])
    {
      var w := WrapWagtailIcon(given[i]);
      assert TypeKey(w) == TypeKey(given[i]);
      assert c.entityTypes[i] == MergeEntityType(registry, w);
    }
  }
}

=== FILE: field_annotation.dfy ===
/**
 * `BasicFieldLevelAnnotation`: the marker shown next to a field for one of
 * its comments. After `subscribeToUpdates` it reacts to every store
 * notification by comparing the new snapshot with what it last saw and
 * firing a DOM effect only when a flag flips (edge-triggered). The DOM
 * effects are recorded in an effect log; `Look` is the level-based picture
 * of the marker node that those effects maintain.
 */
module FieldAnnotation {
  import opened Common
  import opened Store

  /** The DOM effects of the annotation: `onFocus`, `onUnfocus`, `show`,
      `hide`, and `onDelete` (node removed and subscription cancelled). */
  datatype Effect = Focus | Unfocus | Show | Hide | Delete

  /** The listener's closure: the comment id, the last focus and enabled
      flags it saw, and whether it is still subscribed to the store. */
  datatype Annotation = Annotation(localId: Id, focused: bool, shown: bool, subscribed: bool)

  /** The new state of an annotation together with the effects it fired. */
  datatype Reaction = Reaction(state: Annotation, effects: seq<Effect>)

  /** `subscribeToUpdates(localId, store)`: reads the snapshot once, focuses the
      marker if its comment is the focused one, and starts listening. The
      `shown` flag starts at the "comments enabled" setting without a
      `show`/`hide` call. */
  function Subscribe(localId: Id, s: Snapshot): (r: Reaction)
    ensures r.state.localId == localId && r.state.subscribed
    ensures r.state.focused == IsFocused(s, localId)
    ensures r.state.shown == s.commentsEnabled
    ensures Focus in r.effects <==> IsFocused(s, localId)
    ensures forall e :: e in r.effects ==> e == Focus
  {
    var focused := IsFocused(s, localId);
    Reaction(Annotation(localId, focused, s.commentsEnabled, true), if focused then [Focus] else [])
  }

  /** `onDelete()`: removes the node and cancels the subscription. */
  function OnDelete(a: Annotation): (r: Reaction)
    ensures !r.state.subscribed
    ensures r.effects == [Delete]
    ensures r.state.localId == a.localId && r.state.focused == a.focused && r.state.shown == a.shown
  {
    Reaction(a.(subscribed := false), [Delete])
  }

  /** `onDelete()` when the comment is gone from the store, nothing otherwise. */
  function DeleteStep(a: Annotation, s: Snapshot): Reaction
  {
    if HasComment(s, a.localId) then Reaction(a, []) else OnDelete(a)
  }

  /** `onFocus`/`onUnfocus` when "my comment is focused" has flipped. */
  function FocusEffects(a: Annotation, s: Snapshot): seq<Effect>
  {
    if IsFocused(s, a.localId) == a.focused then [] else if a.focused then [Unfocus] else [Focus]
  }

  /** `hide`/`show` when the "comments enabled" setting has flipped. */
  function ShowEffects(a: Annotation, s: Snapshot): seq<Effect>
  {
    if a.shown == s.commentsEnabled then [] else if a.shown then [Hide] else [Show]
  }

  /** The store listener, run on one notification. A missing comment triggers
      `onDelete`, and the rest of the listener still runs in the same call;
      afterwards the store no longer calls it. */
  function Notify(a: Annotation, s: Snapshot): (r: Reaction)
    ensures Focus in r.effects <==> a.subscribed && !a.focused && IsFocused(s, a.localId)
    ensures Unfocus in r.effects <==> a.subscribed && a.focused && !IsFocused(s, a.localId)
    ensures Hide in r.effects <==> a.subscribed && a.shown && !s.commentsEnabled
    ensures Show in r.effects <==> a.subscribed && !a.shown && s.commentsEnabled
    ensures Delete in r.effects <==> a.subscribed && !HasComment(s, a.localId)
    ensures r.state.subscribed <==> a.subscribed && HasComment(s, a.localId)
    ensures r.state.localId == a.localId
    ensures a.subscribed ==> r.state.focused == IsFocused(s, a.localId) && r.state.shown == s.commentsEnabled
    ensures !a.subscribed ==> r == Reaction(a, [])
  {
    if !a.subscribed then Reaction(a, [])
    else
      var deleted := DeleteStep(a, s);
      Reaction(
        deleted.state.(focused := IsFocused(s, a.localId), shown := s.commentsEnabled),
        deleted.effects + FocusEffects(a, s) + ShowEffects(a, s))
  }

  /** A sequence of notifications, effects concatenated in order. */
  function Run(a: Annotation, ss: seq<Snapshot>): Reaction
    decreases |ss|
  {
    if |ss| == 0 then Reaction(a, [])
    else
      var first := Notify(a, ss[0]);
      var rest := Run(first.state, ss[1..]);
      Reaction(rest.state, first.effects + rest.effects)
  }

  /** A repeated notification with the same snapshot fires nothing: the
      listener is idempotent against redundant notifications. */
  lemma RepeatIsSilent(a: Annotation, s: Snapshot)
    ensures Notify(Notify(a, s).state, s).effects == []
  {
  }

  /** Once unsubscribed, an annotation fires nothing and stays as it is. */
  lemma {:induction false} UnsubscribedIsSilent(a: Annotation, ss: seq<Snapshot>)
    requires !a.subscribed
    ensures Run(a, ss) == Reaction(a, [])
    decreases |ss|
  {
    if |ss| > 0 {
      UnsubscribedIsSilent(a, ss[1..]);
    }
  }

  /** After the notification that deletes the comment, later notifications fire nothing. */
  lemma SilentAfterDelete(a: Annotation, s: Snapshot, later: seq<Snapshot>)
    requires !HasComment(s, a.localId)
    ensures Run(a, [s] + later).effects == Notify(a, s).effects
  {
    UnsubscribedIsSilent(Notify(a, s).state, later);
    assert ([s] + later)[1..] == later;
  }

  // ---------------------------------------------------------------------------
  // The level-based partner: what the marker node looks like

  /** The marker node: whether it shows as focused (no `button-secondary`
      class), whether it is hidden (`u-hidden` class), whether it is still in
      the document. */
  datatype Look = Look(focusedLook: bool, hiddenLook: bool, attached: bool)

  /** The effect applied to the node, or `None` when it would change nothing
      (a redundant DOM update). */
  function ApplyEffect(l: Look, e: Effect): Option<Look>
  {
    match e
    case Focus => if l.focusedLook then None else Some(l.(focusedLook := true))
    case Unfocus => if l.focusedLook then Some(l.(focusedLook := false)) else None
    case Show => if l.hiddenLook then Some(l.(hiddenLook := false)) else None
    case Hide => if l.hiddenLook then None else Some(l.(hiddenLook := true))
    case Delete => if l.attached then Some(l.(attached := false)) else None
  }

  /** The effects applied in order; `None` as soon as one of them is redundant. */
  function ApplyEffects(l: Look, es: seq<Effect>): Option<Look>
    decreases |es|
  {
    if |es| == 0 then Some(l)
    else
      match ApplyEffect(l, es[0])
      case None => None
      case Some(l') => ApplyEffects(l', es[1..])
  }

  lemma {:induction false} ApplyEffectsAppend(l: Look, es: seq<Effect>, fs: seq<Effect>)
    requires ApplyEffects(l, es).Some?
    ensures ApplyEffects(l, es + fs) == ApplyEffects(ApplyEffects(l, es).value, fs)
    decreases |es|
  {
    if |es| > 0 {
      assert (es + fs)[0] == es[0];
      assert (es + fs)[1..] == es[1..] + fs;
      ApplyEffectsAppend(ApplyEffect(l, es[0]).value, es[1..], fs);
    } else {
      assert es + fs == fs;
    }
  }

  /** The node shows what the annotation last saw. */
  predicate InSync(a: Annotation, l: Look)
  {
    l.focusedLook == a.focused && l.hiddenLook == !a.shown && l.attached == a.subscribed
  }

  /** One notification keeps the node in step with the annotation, and every
      effect it fires actually changes the node. */
  lemma NotifyKeepsLookInSync(a: Annotation, l: Look, s: Snapshot)
    requires InSync(a, l)
    ensures ApplyEffects(l, Notify(a, s).effects).Some?
    ensures InSync(Notify(a, s).state, ApplyEffects(l, Notify(a, s).effects).value)
  {
    if a.subscribed {
      var del, fx, sx := DeleteStep(a, s).effects, FocusEffects(a, s), ShowEffects(a, s);
      var l1 := l.(attached := HasComment(s, a.localId));
      var l2 := l1.(focusedLook := IsFocused(s, a.localId));
      var l3 := l2.(hiddenLook := !s.commentsEnabled);
      DeleteStage(a, l, s);
      FocusStage(a, l1, s);
      ShowStage(a, l2, s);
      ApplyEffectsAppend(l, del, fx);
      ApplyEffectsAppend(l, del + fx, sx);
    }
  }

  lemma DeleteStage(a: Annotation, l: Look, s: Snapshot)
    requires l.attached
    ensures ApplyEffects(l, DeleteStep(a, s).effects) == Some(l.(attached := HasComment(s, a.localId)))
  {
  }

  lemma FocusStage(a: Annotation, l: Look, s: Snapshot)
    requires l.focusedLook == a.focused
    ensures ApplyEffects(l, FocusEffects(a, s)) == Some(l.(focusedLook := IsFocused(s, a.localId)))
  {
  }

  lemma ShowStage(a: Annotation, l: Look, s: Snapshot)
    requires l.hiddenLook == !a.shown
    ensures ApplyEffects(l, ShowEffects(a, s)) == Some(l.(hiddenLook := !s.commentsEnabled))
  {
  }

  /** Over any sequence of notifications the node stays in step with the
      store, and no effect is ever redundant: in particular `onDelete` removes
      the node at most once. */
  lemma {:induction false} RunKeepsLookInSync(a: Annotation, l: Look, ss: seq<Snapshot>)
    requires InSync(a, l)
    ensures ApplyEffects(l, Run(a, ss).effects).Some?
    ensures InSync(Run(a, ss).state, ApplyEffects(l, Run(a, ss).effects).value)
    decreases |ss|
  {
    if |ss| > 0 {
      var first := Notify(a, ss[0]);
      NotifyKeepsLookInSync(a, l, ss[0]);
      var l1 := ApplyEffects(l, first.effects).value;
      RunKeepsLookInSync(first.state, l1, ss[1..]);
      ApplyEffectsAppend(l, first.effects, Run(first.state, ss[1..]).effects);
    }
  }

  /** Subscribing brings an unfocused node whose visibility already matches
      the "comments enabled" setting in step with the annotation. */
  lemma SubscribeInSync(localId: Id, s: Snapshot)
    ensures
      var l := Look(false, !s.commentsEnabled, true);
      var r := Subscribe(localId, s);
      ApplyEffects(l, r.effects).Some? && InSync(r.state, ApplyEffects(l, r.effects).value)
  {
  }
}

=== FILE: field_widget.dfy ===
/**
 * `FieldLevelCommentWidget` and `initFieldLevelCommentWidget`: the per-field
 * controller that shows the "add comment" button only while comments are
 * enabled and the field has none, and creates an annotation for each comment
 * of its content path that has none yet.
 */
module FieldWidget {
  import opened Common
  import opened Store
  import ContentPath

  /** The widget's fields that the logic reads and writes. `addHidden` is
      whether the add button carries the `u-hidden` class. */
  datatype Widget = Widget(contentPath: string, commentNumber: nat, commentsEnabled: bool, addHidden: bool)

  /** The constructor: no comments counted, comments disabled. It does not
      touch the add button, whose class stays as the page rendered it. */
  function NewWidget(contentPath: string, addHidden: bool): (w: Widget)
    ensures w.commentNumber == 0 && !w.commentsEnabled
    ensures w.contentPath == contentPath && w.addHidden == addHidden
  {
    Widget(contentPath, 0, false, addHidden)
  }

  /** The add button is hidden exactly when comments are disabled or the
      field already has a comment. */
  predicate VisibilityKept(w: Widget)
  {
    w.addHidden <==> !w.commentsEnabled || w.commentNumber > 0
  }

  /** `updateVisibility()`. */
  function UpdateVisibility(w: Widget): (r: Widget)
    ensures VisibilityKept(r)
    ensures r.contentPath == w.contentPath && r.commentNumber == w.commentNumber
    ensures r.commentsEnabled == w.commentsEnabled
  {
    w.(addHidden := !w.commentsEnabled || w.commentNumber > 0)
  }

  /** `setEnabled(enabled)`. */
  function SetEnabled(w: Widget, enabled: bool): (r: Widget)
    ensures r.commentsEnabled == enabled && VisibilityKept(r)
    ensures r.contentPath == w.contentPath && r.commentNumber == w.commentNumber
  {
    UpdateVisibility(w.(commentsEnabled := enabled))
  }

  /** `onChangeComments(comments)`; the comments listener of `register` does
      the same two assignments inline. */
  function OnChangeComments(w: Widget, comments: seq<Comment>): (r: Widget)
    ensures r.commentNumber == |comments| && VisibilityKept(r)
    ensures r.contentPath == w.contentPath && r.commentsEnabled == w.commentsEnabled
  {
    UpdateVisibility(w.(commentNumber := |comments|))
  }

  // ---------------------------------------------------------------------------
  // register

  /** What the widget did in response to the store: `setEnabled`, a new
      comment count, or a new annotation created and subscribed for a comment. */
  datatype Event = EnabledSet(enabled: bool) | CommentsCounted(count: nat) | Annotate(localId: Id)

  /** A registered widget with the two variables its listeners close over.
      Both store listeners stay subscribed for the page's lifetime;
      `addListening` is whether the add button's click listener, which asks
      the store for a new comment, was installed. */
  datatype Registration = Registration(widget: Widget, currentlyEnabled: bool, currentComments: seq<Comment>, addListening: bool)

  datatype Step = Step(reg: Registration, events: seq<Event>)

  /** The invariant of a registered widget: the listener's copy of the
      setting agrees with the widget, and the add button is right. */
  predicate RegistrationOk(r: Registration)
  {
    r.currentlyEnabled == r.widget.commentsEnabled && VisibilityKept(r.widget)
  }

  /** The widget's count is the length of the list its listener last saw. */
  predicate CountAgrees(r: Registration)
  {
    r.widget.commentNumber == |r.currentComments|
  }

  function AnnotateAll(ids: seq<Id>): (es: seq<Event>)
    ensures |es| == |ids|
    ensures forall i :: 0 <= i < |ids| ==> es[i] == Annotate(ids[i])
  {
    if |ids| == 0 then [] else [Annotate(ids[0])] + AnnotateAll(ids[1..])
  }

  /** `comments.filter((comment) => comment.annotation === null)`, by id. */
  function Unannotated(comments: seq<Comment>): (ids: seq<Id>)
    ensures |ids| <= |comments|
    ensures forall id :: id in ids <==> exists c :: c in comments && !c.annotated && c.localId == id
  {
    if |comments| == 0 then []
    else
      var rest := Unannotated(comments[1..]);
      assert forall c :: c in comments <==> c == comments[0] || c in comments[1..];
      if comments[0].annotated then rest else [comments[0].localId] + rest
  }

  /** The ids of the comments on `path`, annotated or not. */
  function IdsFor(comments: seq<Comment>, path: string): (ids: seq<Id>)
    ensures |ids| <= |comments|
    ensures forall id :: id in ids <==> exists c :: c in comments && c.contentPath == path && c.localId == id
  {
    if |comments| == 0 then []
    else
      var rest := IdsFor(comments[1..], path);
      assert forall c :: c in comments <==> c == comments[0] || c in comments[1..];
      if comments[0].contentPath == path then [comments[0].localId] + rest else rest
  }

  /** `register(commentApp)` with the initial enumeration repaired: every
      comment already on this widget's content path gets an annotation,
      subscribed under that comment's own id. */
  function Register(w: Widget, s: Snapshot): (r: Step)
    ensures RegistrationOk(r.reg)
    ensures r.reg.widget.contentPath == w.contentPath && r.reg.widget.commentNumber == w.commentNumber
    ensures r.reg.widget.commentsEnabled == s.commentsEnabled
    ensures r.reg.currentComments == CommentsFor(s.comments, w.contentPath)
    ensures r.reg.addListening
    ensures |r.events| > 0 && r.events[0] == EnabledSet(s.commentsEnabled)
    ensures forall id :: Annotate(id) in r.events <==>
      exists c :: c in s.comments && c.contentPath == w.contentPath && c.localId == id
  {
    var ids := IdsFor(s.comments, w.contentPath);
    var events := [EnabledSet(s.commentsEnabled)] + AnnotateAll(ids);
    assert forall id :: Annotate(id) in events <==> id in ids by {
      forall id | id in ids
        ensures Annotate(id) in events
      {
        var i :| 0 <= i < |ids| && ids[i] == id;
        assert events[i + 1] == Annotate(id);
      }
    }
    Step(Registration(SetEnabled(w, s.commentsEnabled), s.commentsEnabled, CommentsFor(s.comments, w.contentPath), true), events)
  }

  /** How far a call got: the state it left behind and what it threw, if
      anything. */
  datatype Attempt = Attempt(step: Step, thrown: Option<JsError>)

  /** `register(commentApp)` as written: the initial enumeration reads the
      undeclared variable `widget` for every comment in the store, so the
      call throws as soon as the store holds a comment. By then `setEnabled`
      has run and both store listeners are subscribed; the add button's
      click listener is never installed. */
  function RegisterAsWritten(w: Widget, s: Snapshot): (r: Attempt)
    ensures r.thrown.Some? <==> |s.comments| > 0
    ensures r.thrown.Some? ==> r.thrown.value == ReferenceError
    ensures r.thrown.None? ==> r.step == Register(w, s)
    ensures r.thrown.Some? ==>
      && r.step.events == [EnabledSet(s.commentsEnabled)]
      && r.step.reg == Register(w, s).reg.(addListening := false)
    ensures RegistrationOk(r.step.reg)
  {
    var reg := Registration(SetEnabled(w, s.commentsEnabled), s.commentsEnabled, CommentsFor(s.comments, w.contentPath), true);
    if |s.comments| > 0 then
      Attempt(Step(reg.(addListening := false), [EnabledSet(s.commentsEnabled)]), Some(ReferenceError))
    else
      assert Register(w, s).events == [EnabledSet(s.commentsEnabled)];
      Attempt(Step(reg, [EnabledSet(s.commentsEnabled)]), None)
  }

  /** A field with one existing comment: the code as written throws where the
      repaired registration creates the comment's annotation. */
  lemma RegisterAsWrittenThrows()
    ensures
      var w := NewWidget("title", false);
      var s := Snapshot([Comment(7, "title", false)], None, true);
      && RegisterAsWritten(w, s).thrown == Some(ReferenceError)
      && !RegisterAsWritten(w, s).step.reg.addListening
      && Annotate(7) !in RegisterAsWritten(w, s).step.events
      && Annotate(7) in Register(w, s).events
  {
    var s := Snapshot([Comment(7, "title", false)], None, true);
    assert s.comments[0] in s.comments;
  }

  /** The first store listener: `setEnabled` when the setting has changed
      since the listener last looked. */
  function EnableListener(r: Registration, s: Snapshot): (r': Step)
    ensures r.currentlyEnabled != s.commentsEnabled ==>
      && r'.events == [EnabledSet(s.commentsEnabled)]
      && r'.reg.widget == SetEnabled(r.widget, s.commentsEnabled)
    ensures r.currentlyEnabled == s.commentsEnabled ==> r'.events == [] && r'.reg.widget == r.widget
    ensures r'.reg.currentlyEnabled == s.commentsEnabled
    ensures r'.reg.currentComments == r.currentComments && r'.reg.addListening == r.addListening
  {
    if r.currentlyEnabled != s.commentsEnabled then
      Step(r.(widget := SetEnabled(r.widget, s.commentsEnabled), currentlyEnabled := s.commentsEnabled), [EnabledSet(s.commentsEnabled)])
    else
      Step(r, [])
  }

  /** The second store listener: when the field's comment list is a different
      list, recount, then create and subscribe an annotation for each listed
      comment that has none. */
  function CommentsListener(r: Registration, s: Snapshot): (r': Step)
    ensures var selected := CommentsFor(s.comments, r.widget.contentPath);
      && r'.reg.currentComments == selected
      && (selected == r.currentComments ==> r'.events == [] && r'.reg.widget == r.widget)
      && (selected != r.currentComments ==>
            && |r'.events| > 0 && r'.events[0] == CommentsCounted(|selected|)
            && r'.reg.widget == OnChangeComments(r.widget, selected))
    ensures forall e :: e in r'.events ==> e == CommentsCounted(|CommentsFor(s.comments, r.widget.contentPath)|) || e.Annotate?
    ensures forall id :: Annotate(id) in r'.events <==>
      && CommentsFor(s.comments, r.widget.contentPath) != r.currentComments
      && exists c :: c in s.comments && c.contentPath == r.widget.contentPath && !c.annotated && c.localId == id
    ensures r'.reg.currentlyEnabled == r.currentlyEnabled && r'.reg.addListening == r.addListening
  {
    var selected := CommentsFor(s.comments, r.widget.contentPath);
    if selected == r.currentComments then
      Step(r.(currentComments := selected), [])
    else
      var ids := Unannotated(selected);
      var created := AnnotateAll(ids);
      assert forall e :: e in created ==> e.Annotate?;
      assert forall id :: Annotate(id) in created <==> id in ids by {
        forall id | id in ids
          ensures Annotate(id) in created
        {
          var i :| 0 <= i < |ids| && ids[i] == id;
          assert created[i] == Annotate(id);
        }
      }
      var events := [CommentsCounted(|selected|)] + created;
      assert forall e :: e in events ==> e == CommentsCounted(|selected|) || e in created;
      Step(r.(widget := OnChangeComments(r.widget, selected), currentComments := selected), events)
  }

  /** The two store listeners installed by `register`, run in the order they
      were subscribed. The selector's result is compared by value. */
  function OnStoreChange(r: Registration, s: Snapshot): (r': Step)
    ensures (exists e :: e in r'.events && e.EnabledSet?) <==> r.currentlyEnabled != s.commentsEnabled
    ensures (exists e :: e in r'.events && e.CommentsCounted?) <==> CommentsFor(s.comments, r.widget.contentPath) != r.currentComments
    ensures forall id :: Annotate(id) in r'.events <==>
      && CommentsFor(s.comments, r.widget.contentPath) != r.currentComments
      && exists c :: c in s.comments && c.contentPath == r.widget.contentPath && !c.annotated && c.localId == id
    ensures forall e :: e in r'.events && e.CommentsCounted? ==> e.count == |CommentsFor(s.comments, r.widget.contentPath)|
    ensures r'.reg.currentlyEnabled == s.commentsEnabled
    ensures r'.reg.currentComments == CommentsFor(s.comments, r.widget.contentPath)
    ensures r'.reg.widget.contentPath == r.widget.contentPath
    ensures r'.reg.widget.commentsEnabled ==
      if r.currentlyEnabled != s.commentsEnabled then s.commentsEnabled else r.widget.commentsEnabled
    ensures r'.reg.widget.commentNumber ==
      if CommentsFor(s.comments, r.widget.contentPath) != r.currentComments
      then |CommentsFor(s.comments, r.widget.contentPath)|
      else r.widget.commentNumber
    ensures r'.reg.addListening == r.addListening
  {
    var first := EnableListener(r, s);
    var second := CommentsListener(first.reg, s);
    if r.currentlyEnabled != s.commentsEnabled then
      var events := [EnabledSet(s.commentsEnabled)] + second.events;
      assert forall e :: e in events <==> e == EnabledSet(s.commentsEnabled) || e in second.events;
      assert events[0] in events;
      Step(second.reg, events)
    else
      Step(second.reg, second.events)
  }

  /** The listeners keep a registered widget's invariant. */
  lemma StoreChangeKeepsInvariant(r: Registration, s: Snapshot)
    requires RegistrationOk(r)
    ensures RegistrationOk(OnStoreChange(r, s).reg)
    ensures OnStoreChange(r, s).reg.widget.commentsEnabled == s.commentsEnabled
  {
  }

  /** Notifications in order, events concatenated. */
  function RunWidget(r: Registration, ss: seq<Snapshot>): Step
    decreases |ss|
  {
    if |ss| == 0 then Step(r, [])
    else
      var first := OnStoreChange(r, ss[0]);
      var rest := RunWidget(first.reg, ss[1..]);
      Step(rest.reg, first.events + rest.events)
  }

  /** From registration on, whatever the store does, the add button is hidden
      exactly when the latest setting disables comments or the widget counts
      a comment. The listener's list is the latest snapshot's, the count is
      its length once it agreed before, and the click listener is installed
      or missing for good. */
  lemma {:induction false} RunKeepsInvariant(r: Registration, ss: seq<Snapshot>)
    requires RegistrationOk(r)
    ensures RegistrationOk(RunWidget(r, ss).reg)
    ensures |ss| > 0 ==> RunWidget(r, ss).reg.widget.commentsEnabled == ss[|ss| - 1].commentsEnabled
    ensures |ss| > 0 ==> RunWidget(r, ss).reg.currentComments == CommentsFor(ss[|ss| - 1].comments, r.widget.contentPath)
    ensures RunWidget(r, ss).reg.widget.contentPath == r.widget.contentPath
    ensures CountAgrees(r) ==> CountAgrees(RunWidget(r, ss).reg)
    ensures RunWidget(r, ss).reg.addListening == r.addListening
    decreases |ss|
  {
    if |ss| > 0 {
      StoreChangeKeepsInvariant(r, ss[0]);
      RunKeepsInvariant(OnStoreChange(r, ss[0]).reg, ss[1..]);
      if |ss| > 1 {
        assert ss[1..][|ss| - 2] == ss[|ss| - 1];
      }
    }
  }

  /** Once the comment list of the field changes, the widget's count is the
      number of its comments from then on. */
  lemma CountAgreesAfterChange(r: Registration, s: Snapshot, later: seq<Snapshot>)
    requires RegistrationOk(r)
    requires CommentsFor(s.comments, r.widget.contentPath) != r.currentComments
    ensures CountAgrees(RunWidget(r, [s] + later).reg)
  {
    assert ([s] + later)[1..] == later;
    RunKeepsInvariant(OnStoreChange(r, s).reg, later);
  }

  /** After the as-written registration throws, the store listeners go on
      keeping the add button right, but the field never gets a click
      listener that creates a comment. */
  lemma ThrownRegistrationNeverAdds(w: Widget, s: Snapshot, later: seq<Snapshot>)
    requires |s.comments| > 0
    ensures RegistrationOk(RunWidget(RegisterAsWritten(w, s).step.reg, later).reg)
    ensures !RunWidget(RegisterAsWritten(w, s).step.reg, later).reg.addListening
  {
    RunKeepsInvariant(RegisterAsWritten(w, s).step.reg, later);
  }

  // ---------------------------------------------------------------------------
  // One annotation per comment

  /** The ids a run of events annotated. */
  function AnnotatedIds(events: seq<Event>): set<Id>
  {
    set e | e in events && e.Annotate? :: e.localId
  }

  /** Creating annotations for a list of ids creates each as often as the
      list holds it. */
  lemma {:induction false} AnnotateAllCount(ids: seq<Id>, id: Id)
    ensures multiset(AnnotateAll(ids))[Annotate(id)] == multiset(ids)[id]
    decreases |ids|
  {
    if |ids| > 0 {
      AnnotateAllCount(ids[1..], id);
      assert ids == [ids[0]] + ids[1..];
      assert AnnotateAll(ids) == [Annotate(ids[0])] + AnnotateAll(ids[1..]);
    }
  }

  /** With unique ids, the filter names each comment at most once. */
  lemma {:induction false} UnannotatedOnce(comments: seq<Comment>, id: Id)
    requires UniqueIds(comments)
    ensures multiset(Unannotated(comments))[id] <= 1
    decreases |comments|
  {
    if |comments| > 0 {
      var rest := comments[1..];
      assert UniqueIds(rest) by {
        forall i, j | 0 <= i < j < |rest|
          ensures rest[i].localId != rest[j].localId
        {
          assert rest[i] == comments[i + 1] && rest[j] == comments[j + 1];
        }
      }
      UnannotatedOnce(rest, id);
      if !comments[0].annotated && comments[0].localId == id {
        forall c | c in rest
          ensures c.localId != id
        {
          var m :| 0 <= m < |rest| && rest[m] == c;
          assert comments[m + 1] == c;
        }
        assert id !in Unannotated(rest);
      }
    }
  }

  /** One notification creates at most one annotation per comment, and none
      for a comment the store already marks as annotated. */
  lemma AnnotatesEachOnce(r: Registration, s: Snapshot, id: Id)
    requires UniqueIds(s.comments)
    ensures multiset(OnStoreChange(r, s).events)[Annotate(id)] <= 1
    ensures (forall c :: c in s.comments && c.localId == id ==> c.annotated) ==>
      multiset(OnStoreChange(r, s).events)[Annotate(id)] == 0
  {
    var first := EnableListener(r, s);
    var second := CommentsListener(first.reg, s);
    assert OnStoreChange(r, s).events == first.events + second.events;
    assert multiset(first.events)[Annotate(id)] == 0;
    var selected := CommentsFor(s.comments, r.widget.contentPath);
    if selected != first.reg.currentComments {
      CommentsForUnique(s.comments, r.widget.contentPath);
      UnannotatedOnce(selected, id);
      AnnotateAllCount(Unannotated(selected), id);
      assert second.events == [CommentsCounted(|selected|)] + AnnotateAll(Unannotated(selected));
    }
  }

  /** What the store must do for a widget to annotate each comment once:
      ids are unique in every snapshot, and from the notification after a
      comment was annotated on, the store marks that comment as annotated
      (`updateAnnotation`). `done` holds the ids annotated so far. */
  predicate StoreRecordsAnnotations(r: Registration, ss: seq<Snapshot>, done: set<Id>)
    decreases |ss|
  {
    |ss| == 0 ||
    (&& UniqueIds(ss[0].comments)
     && (forall c :: c in ss[0].comments && c.localId in done ==> c.annotated)
     && StoreRecordsAnnotations(OnStoreChange(r, ss[0]).reg, ss[1..], done + AnnotatedIds(OnStoreChange(r, ss[0]).events)))
  }

  /** Over any notifications after registration, a widget creates at most
      one annotation per comment, and none for a comment annotated before,
      provided the store records the annotations it is given. */
  lemma {:induction false} AnnotatesAtMostOnce(r: Registration, ss: seq<Snapshot>, done: set<Id>, id: Id)
    requires StoreRecordsAnnotations(r, ss, done)
    ensures multiset(RunWidget(r, ss).events)[Annotate(id)] <= (if id in done then 0 else 1)
    decreases |ss|
  {
    if |ss| > 0 {
      var first := OnStoreChange(r, ss[0]);
      var done' := done + AnnotatedIds(first.events);
      AnnotatesEachOnce(r, ss[0], id);
      AnnotatesAtMostOnce(first.reg, ss[1..], done', id);
      if Annotate(id) in first.events {
        assert id in AnnotatedIds(first.events);
      }
    }
  }

  /** With unique ids, registration names each comment at most once. */
  lemma {:induction false} IdsForOnce(comments: seq<Comment>, path: string, id: Id)
    requires UniqueIds(comments)
    ensures multiset(IdsFor(comments, path))[id] <= 1
    decreases |comments|
  {
    if |comments| > 0 {
      var rest := comments[1..];
      assert UniqueIds(rest) by {
        forall i, j | 0 <= i < j < |rest|
          ensures rest[i].localId != rest[j].localId
        {
          assert rest[i] == comments[i + 1] && rest[j] == comments[j + 1];
        }
      }
      IdsForOnce(rest, path, id);
      if comments[0].contentPath == path && comments[0].localId == id {
        forall c | c in rest
          ensures c.localId != id
        {
          var m :| 0 <= m < |rest| && rest[m] == c;
          assert comments[m + 1] == c;
        }
        assert id !in IdsFor(rest, path);
      }
    }
  }

  /** Over a widget's whole life, from registration through any later
      notifications, each comment gets at most one annotation, provided the
      store records the annotations it is given. */
  lemma AnnotatesOncePerLife(w: Widget, s: Snapshot, ss: seq<Snapshot>, id: Id)
    requires UniqueIds(s.comments)
    requires StoreRecordsAnnotations(Register(w, s).reg, ss, AnnotatedIds(Register(w, s).events))
    ensures multiset(Register(w, s).events + RunWidget(Register(w, s).reg, ss).events)[Annotate(id)] <= 1
  {
    var ids := IdsFor(s.comments, w.contentPath);
    var registered := Register(w, s);
    assert registered.events == [EnabledSet(s.commentsEnabled)] + AnnotateAll(ids);
    IdsForOnce(s.comments, w.contentPath, id);
    AnnotateAllCount(ids, id);
    AnnotatesAtMostOnce(registered.reg, ss, AnnotatedIds(registered.events), id);
    if Annotate(id) in registered.events {
      assert id in AnnotatedIds(registered.events);
    }
  }

  /** `initFieldLevelCommentWidget(fieldElement)` with both repairs: builds
      the widget (the constructor computes the content path, here with the
      attribute selector) and registers it, with the repaired `register`,
      only when the path is not empty. `addButton` is the field's
      `[data-comment-add]` element, given by whether it carries `u-hidden`,
      or `None` when the field has none: registering then throws in the first
      `updateVisibility`, which reads the button's class list. */
  method InitFieldWidget(chain: seq<ContentPath.Node>, addButton: Option<bool>, s: Snapshot)
    returns (r: Result<Option<Step>, JsError>)
    ensures ContentPath.ContentPathOf(chain, ContentPath.AttributeSelector).Err? ==> r == Err(TypeError)
    ensures ContentPath.ContentPathOf(chain, ContentPath.AttributeSelector) == Ok("") ==> r == Ok(None)
    ensures addButton.None? ==>
      (ContentPath.ContentPathOf(chain, ContentPath.AttributeSelector) != Ok("") <==> r == Err(TypeError))
    ensures r.Ok? && r.value.Some? ==>
      && addButton.Some?
      && ContentPath.ContentPathOf(chain, ContentPath.AttributeSelector) == Ok(r.value.value.reg.widget.contentPath)
      && r.value.value.reg.widget.contentPath != ""
      && r.value.value == Register(NewWidget(r.value.value.reg.widget.contentPath, addButton.value), s)
    ensures r.Ok? ==> (r.value.Some? <==> ContentPath.ContentPathOf(chain, ContentPath.AttributeSelector) != Ok(""))
  {
    var path := ContentPath.GetContentPath(chain, ContentPath.AttributeSelector);
    match path
    case Err(e) =>
      return Err(e);
    case Ok(p) =>
      if p == "" {
        return Ok(None);
      }
      match addButton
      case None =>
        return Err(TypeError);
      case Some(hidden) =>
        return Ok(Some(Register(NewWidget(p, hidden), s)));
  }
}

=== FILE: js_text.dfy ===
/**
 * The JavaScript string and number built-ins the comment code relies on:
 * `Array.prototype.join`, `String.prototype.startsWith`, `slice`, the global
 * `parseInt` (called without a radix) and the decimal rendering of a safe
 * integer used by template literals. `Split` is not called by the modelled
 * code; it is the inverse against which `Join` is checked.
 */
module JsText {
  import opened Common

  /** The largest integer a JavaScript number holds exactly, 2^53 - 1. */
  const MaxSafeInteger: nat := 0x1F_FFFF_FFFF_FFFF

  // ---------------------------------------------------------------------------
  // join / split

  /** `parts.join(sep)`: the parts separated by one `sep` each; `""` for no parts. */
  function Join(parts: seq<string>, sep: char): (r: string)
    decreases |parts|
  {
    if |parts| == 0 then ""
    else if |parts| == 1 then parts[0]
    else parts[0] + [sep] + Join(parts[1..], sep)
  }

  /** Position of the first `c` in `s`, if any. */
  function IndexOf(s: string, c: char): (r: Option<nat>)
    ensures r.Some? ==> r.value < |s| && s[r.value] == c && c !in s[..r.value]
    ensures r.None? ==> c !in s
  {
    if |s| == 0 then None
    else if s[0] == c then Some(0)
    else
      match IndexOf(s[1..], c)
      case None => None
      case Some(i) =>
        assert s[..i + 1] == [s[0]] + s[1..][..i];
        Some(i + 1)
  }

  /** `s.split(sep)`: the maximal `sep`-free pieces of `s`, in order. */
  function Split(s: string, sep: char): (r: seq<string>)
    ensures |r| > 0
    ensures forall i :: 0 <= i < |r| ==> sep !in r[i]
    decreases |s|
  {
    match IndexOf(s, sep)
    case None => [s]
    case Some(i) => [s[..i]] + Split(s[i + 1..], sep)
  }

  lemma IndexOfAfterSeparator(a: string, c: char, b: string)
    requires c !in a
    ensures IndexOf(a + [c] + b, c) == Some(|a|)
  {
    var s := a + [c] + b;
    assert s[|a|] == c;
    assert s[..|a|] == a;
  }

  /** Joining pieces that do not contain the separator can be undone by splitting. */
  lemma {:induction false} SplitJoin(parts: seq<string>, sep: char)
    requires |parts| > 0
    requires forall i :: 0 <= i < |parts| ==> sep !in parts[i]
    ensures Split(Join(parts, sep), sep) == parts
    decreases |parts|
  {
    if |parts| == 1 {
      assert Join(parts, sep) == parts[0];
      assert sep !in parts[0];
    } else {
      var rest := Join(parts[1..], sep);
      var s := parts[0] + [sep] + rest;
      assert Join(parts, sep) == s;
      assert sep !in parts[0];
      IndexOfAfterSeparator(parts[0], sep, rest);
      assert s[..|parts[0]|] == parts[0];
      assert s[|parts[0]| + 1..] == rest;
      SplitJoin(parts[1..], sep);
      assert parts == [parts[0]] + parts[1..];
    }
  }

  /** `xs.reverse()`: the same elements in the opposite order. */
  function Reverse<T>(xs: seq<T>): (r: seq<T>)
    ensures |r| == |xs|
    ensures forall i :: 0 <= i < |xs| ==> r[i] == xs[|xs| - 1 - i]
  {
    if |xs| == 0 then [] else Reverse(xs[1..]) + [xs[0]]
  }

  lemma ReverseAppend<T>(a: seq<T>, b: seq<T>)
    ensures Reverse(a + b) == Reverse(b) + Reverse(a)
  {
    assert |Reverse(a + b)| == |Reverse(b) + Reverse(a)|;
    forall i | 0 <= i < |a| + |b|
      ensures Reverse(a + b)[i] == (Reverse(b) + Reverse(a))[i]
    {
      if i < |b| {
        assert Reverse(a + b)[i] == (a + b)[|a| + |b| - 1 - i];
      } else {
        assert Reverse(a + b)[i] == (a + b)[|a| + |b| - 1 - i];
      }
    }
  }

  // ---------------------------------------------------------------------------
  // startsWith / slice

  /** `s.startsWith(prefix)`. */
  predicate StartsWith(s: string, prefix: string)
  {
    |prefix| <= |s| && s[..|prefix|] == prefix
  }

  /** `s.slice(start)` for a non-negative start: the suffix, or `""` past the end. */
  function Slice(s: string, start: nat): (r: string)
    ensures start <= |s| ==> s == s[..start] + r
    ensures start >= |s| ==> r == ""
  {
    if start <= |s| then s[start..] else ""
  }

  // ---------------------------------------------------------------------------
  // parseInt

  /** The characters `parseInt` skips at the start: the ECMAScript white space
      (tab, vertical tab, form feed, space, no-break space, byte order mark and
      the other space separators) and the line terminators. */
  predicate IsJsWhitespace(c: char)
  {
    || c == '\t' || c == '\n' || c == '\U{B}' || c == '\U{C}' || c == '\r'
    || c == ' ' || c == '\U{A0}' || c == '\U{1680}'
    || ('\U{2000}' <= c <= '\U{200A}')
    || c == '\U{2028}' || c == '\U{2029}' || c == '\U{202F}' || c == '\U{205F}'
    || c == '\U{3000}' || c == '\U{FEFF}'
  }

  /** The string with its leading white space removed. */
  function TrimStart(s: string): (r: string)
    ensures |r| <= |s| && r == s[|s| - |r|..]
    ensures |r| > 0 ==> !IsJsWhitespace(r[0])
    ensures forall i :: 0 <= i < |s| - |r| ==> IsJsWhitespace(s[i])
  {
    if |s| > 0 && IsJsWhitespace(s[0]) then TrimStart(s[1..]) else s
  }

  /** The value of a character as a digit in any radix up to 36; 36 for a non-digit. */
  function DigitValue(c: char): (d: nat)
    ensures d <= 36
  {
    if '0' <= c <= '9' then c as nat - '0' as nat
    else if 'a' <= c <= 'z' then c as nat - 'a' as nat + 10
    else if 'A' <= c <= 'Z' then c as nat - 'A' as nat + 10
    else 36
  }

  predicate IsDigit(c: char, radix: nat)
  {
    DigitValue(c) < radix
  }

  /** The longest prefix of `s` made of `radix` digits. */
  function DigitPrefix(s: string, radix: nat): (r: string)
    ensures |r| <= |s| && r == s[..|r|]
    ensures forall i :: 0 <= i < |r| ==> IsDigit(r[i], radix)
    ensures |r| < |s| ==> !IsDigit(s[|r|], radix)
  {
    if |s| == 0 || !IsDigit(s[0], radix) then ""
    else
      var tail := DigitPrefix(s[1..], radix);
      assert s[..|tail| + 1] == [s[0]] + s[1..][..|tail|];
      [s[0]] + tail
  }

  /** The number the digit string `ds` denotes in base `radix`, most significant first. */
  function DigitsValue(ds: string, radix: nat): nat
  {
    if |ds| == 0 then 0
    else DigitsValue(ds[..|ds| - 1], radix) * radix + DigitValue(ds[|ds| - 1])
  }

  /** The global `parseInt(s)` with no radix argument; `None` stands for `NaN`.
      Leading white space is skipped, one sign is accepted, a `0x`/`0X` prefix
      switches to base 16, and the longest run of digits that follows is read;
      without any digit the result is `NaN`. */
  function ParseInt(input: string): (r: Option<int>)
  {
    var s := TrimStart(input);
    var negative := |s| > 0 && s[0] == '-';
    var unsigned := if |s| > 0 && (s[0] == '-' || s[0] == '+') then s[1..] else s;
    var hex := |unsigned| >= 2 && unsigned[0] == '0' && (unsigned[1] == 'x' || unsigned[1] == 'X');
    var radix := if hex then 16 else 10;
    var body := if hex then unsigned[2..] else unsigned;
    var digits := DigitPrefix(body, radix);
    var magnitude: int := DigitsValue(digits, radix);
    if |digits| == 0 then None
    else if negative then Some(-magnitude)
    else Some(magnitude)
  }

  // ---------------------------------------------------------------------------
  // number to string

  function DecimalDigit(d: nat): (c: char)
    requires d < 10
    ensures DigitValue(c) == d
  {
    "0123456789"[d]
  }

  /** `String(n)` (also `${n}`) for a non-negative safe integer: its decimal
      digits, without leading zeros. */
  function NatToDecimal(n: nat): (r: string)
    requires n <= MaxSafeInteger
    ensures |r| > 0
    ensures forall i :: 0 <= i < |r| ==> IsDigit(r[i], 10)
    ensures r[0] == '0' ==> n == 0
  {
    if n < 10 then [DecimalDigit(n)]
    else NatToDecimal(n / 10) + [DecimalDigit(n % 10)]
  }

  lemma {:induction false} DecimalValue(n: nat)
    requires n <= MaxSafeInteger
    ensures DigitsValue(NatToDecimal(n), 10) == n
  {
    if n >= 10 {
      DecimalValue(n / 10);
      var s := NatToDecimal(n);
      assert s[..|s| - 1] == NatToDecimal(n / 10);
    }
  }

  /** Reading back the decimal rendering of a safe integer gives the integer. */
  lemma ParseIntDecimal(n: nat)
    requires n <= MaxSafeInteger
    ensures ParseInt(NatToDecimal(n)) == Some(n)
  {
    var s := NatToDecimal(n);
    assert !IsJsWhitespace(s[0]) by {
      assert IsDigit(s[0], 10);
    }
    assert TrimStart(s) == s;
    assert IsDigit(s[0], 10);
    var d := DigitPrefix(s, 10);
    assert d == s;
    DecimalValue(n);
  }
}

=== FILE: store.dfy ===
/**
 * What the comment code reads from the external comment store. The store
 * itself (reducers, actions, `makeComment`) is not part of this model: every
 * read of `store.getState()` is a `Snapshot`, and every comment id the store
 * hands out is a parameter.
 */
module Store {
  import opened Common
  import JsText

  /** A comment's local id, a JavaScript number that is a non-negative safe integer. */
  type Id = n: nat | n <= JsText.MaxSafeInteger

  /** Whether a JavaScript number is a comment id. */
  predicate IsId(n: int)
  {
    0 <= n <= JsText.MaxSafeInteger
  }

  /** The fields of a comment record the comment code reads: its id, its
      content path and whether an annotation is attached to it yet. */
  datatype Comment = Comment(localId: Id, contentPath: string, annotated: bool)

  /** `store.getState()`: the comments in insertion order, the focused comment
      (`null` when none) and the page-wide "comments enabled" setting. */
  datatype Snapshot = Snapshot(comments: seq<Comment>, focusedComment: Option<Id>, commentsEnabled: bool)

  /** `state.comments.comments.get(localId) !== undefined`. */
  predicate HasComment(s: Snapshot, id: Id)
  {
    exists i :: 0 <= i < |s.comments| && s.comments[i].localId == id
  }

  /** `state.comments.focusedComment === localId`. */
  predicate IsFocused(s: Snapshot, id: Id)
  {
    s.focusedComment == Some(id)
  }

  /** The comments of one content path, in store order: what the selector
      returned by `selectCommentsForContentPathFactory(path)` yields. */
  function CommentsFor(comments: seq<Comment>, path: string): (r: seq<Comment>)
    ensures |r| <= |comments|
    ensures forall c :: c in r <==> c in comments && c.contentPath == path
  {
    if |comments| == 0 then []
    else if comments[0].contentPath == path then [comments[0]] + CommentsFor(comments[1..], path)
    else CommentsFor(comments[1..], path)
  }

  /** The selector keeps every comment of the path as often as the store
      holds it and drops every other one, so its length is the number of
      comments on the path. */
  lemma {:induction false} CommentsForCounts(comments: seq<Comment>, path: string)
    ensures forall c ::
      multiset(CommentsFor(comments, path))[c] == (if c.contentPath == path then multiset(comments)[c] else 0)
    decreases |comments|
  {
    if |comments| > 0 {
      CommentsForCounts(comments[1..], path);
      assert comments == [comments[0]] + comments[1..];
    }
  }

  /** The selector keeps store order: selecting from a concatenation is
      selecting from each part, one after the other. With the one-comment
      case this fixes the result completely. */
  lemma {:induction false} CommentsForAppend(a: seq<Comment>, b: seq<Comment>, path: string)
    ensures CommentsFor(a + b, path) == CommentsFor(a, path) + CommentsFor(b, path)
    ensures CommentsFor([], path) == []
    ensures forall c :: CommentsFor([c], path) == if c.contentPath == path then [c] else []
    decreases |a|
  {
    if |a| > 0 {
      CommentsForAppend(a[1..], b, path);
      assert (a + b)[1..] == a[1..] + b;
    } else {
      assert a + b == b;
    }
    forall c
      ensures CommentsFor([c], path) == if c.contentPath == path then [c] else []
    {
      assert [c][1..] == [];
    }
  }

  /** No two comments in the list share an id, as in the store's map from
      ids to comments. */
  predicate UniqueIds(comments: seq<Comment>)
  {
    forall i, j :: 0 <= i < j < |comments| ==> comments[i].localId != comments[j].localId
  }

  /** Selecting keeps ids unique. */
  lemma {:induction false} CommentsForUnique(comments: seq<Comment>, path: string)
    requires UniqueIds(comments)
    ensures UniqueIds(CommentsFor(comments, path))
    decreases |comments|
  {
    if |comments| > 0 {
      var rest := comments[1..];
      assert UniqueIds(rest) by {
        forall i, j | 0 <= i < j < |rest|
          ensures rest[i].localId != rest[j].localId
        {
          assert rest[i] == comments[i + 1] && rest[j] == comments[j + 1];
        }
      }
      CommentsForUnique(rest, path);
      var r := CommentsFor(comments, path);
      if comments[0].contentPath == path {
        var tail := CommentsFor(rest, path);
        assert r == [comments[0]] + tail;
        forall k | 0 <= k < |tail|
          ensures tail[k].localId != comments[0].localId
        {
          assert tail[k] in rest;
          var m :| 0 <= m < |rest| && rest[m] == tail[k];
          assert rest[m] == comments[m + 1];
        }
        forall i, j | 0 <= i < j < |r|
          ensures r[i].localId != r[j].localId
        {
          assert r[j] == tail[j - 1];
          if i > 0 {
            assert r[i] == tail[i - 1];
          }
        }
      }
    }
  }
}
